=== FILE: README.md ===
# iso_cv: a verified model of the bookkeeping around the image analysis

iso_cv measures isopods in photographs. Two scripts do the work.

- `iso-cv-camera.py` works on camera images. It converts each raw image to a
  gray image, shifting its brightness so that the background lands on 240. It
  finds a region of interest (ROI) around the animal and measures the largest
  contour in it. It stores one row per image in the ledger `camera.txt`: the
  row replaces every line that contains the image name, or is appended when
  no line does.
- `scripts/iso-cv-scanner.py` works on flatbed scans. It accepts each large
  enough contour as an object and numbers the objects 1, 2, ... . It cleans
  each object with morphology whose kernel sizes and iteration counts depend
  on the object's length. It writes one results file per image.

Almost every line of the two scripts calls OpenCV or numpy. This project
models the deterministic layer between those calls:

- string and list logic;
- Python slicing;
- rounding;
- the ledger rewrite;
- the most-common/median background estimate;
- window arithmetic;
- the size-adaptive parameter formula;
- the tab-separated row formats.

Contours are records of the numbers the scripts read off them: point count,
area, bounding box, enclosing circle and fitted ellipse. Images are grids of
values. Files are sequences of lines, and directories are sets of names.

Modules:

| module | file | what it holds |
|---|---|---|
| `PySlice` | pyslice.dfy | `s[start:stop]` with clipping and negative indices |
| `Numeric` | numeric.dfy | `int(x)` (truncation) and `round` (half to even) on exact reals |
| `Seqs` | seqs.dfy | first index, distinctness, removal |
| `Text` | text.dfy | `p in s`, `str` of integers and of two-decimal floats, `"\t".join` and `split("\t")` |
| `ArgMax` | argmax.dfy | `np.argmax`: first position of the maximum |
| `Contours` | contours.dfy | contour records; the largest contour |
| `Ledger` | ledger.dfy | `camera.txt`: header, rows, replace-or-append |
| `Background` | background.dfy | `Counter(vec).most_common(9)`, `np.median`, the brightness shift |
| `Naming` | naming.dfy | gray-image names, skip and redo decisions, scanner output names |
| `Roi` | roi.dfy | camera and scanner crop windows, centroid offset, crop and write-back |
| `Scanner` | scanner.dfy | object acceptance, labels, morphology parameters, results file |
| `Camera` | camera.dfy | measurement of one image and its effect on the ledger |

## Model

| member | source | states |
|---|---|---|
| PySlice.Bounds | iso-cv-camera.py:177 | a Python slice of a length-n sequence is a valid span; position k is in it exactly when start ≤ k < stop after negative ends are counted from the end and both ends are clipped to 0..n |
| PySlice.Resolve | iso-cv-camera.py:177 | a slice end is clipped into 0..n, and a negative end counts from the back |
| PySlice.Slice | iso-cv-camera.py:60 | the slice is never longer than the sequence, and with ends in range it is exactly the elements from start up to stop |
| PySlice.NonNegativeBounds | iso-cv-camera.py:177 | with non-negative ends, a crop spans min(start, n) to max(start, min(stop, n)) |
| Numeric.Trunc | iso-cv-camera.py:174-175 | `int(x)` truncates toward zero: for x ≥ 0 it is the largest integer ≤ x, for x < 0 the smallest integer ≥ x |
| Numeric.RoundHalfEven | scripts/iso-cv-scanner.py:123-128 | `round(x)` is within one half of x, and on an exact tie it is even |
| Numeric.Round2 | iso-cv-camera.py:207 | `round(x, 2)` in hundredths is within 0.005 of x |
| Numeric.RoundMonotone | scripts/iso-cv-scanner.py:123-128 | rounding never reverses the order of two values |
| Numeric.RoundOfInteger | scripts/iso-cv-scanner.py:123-128 | rounding leaves an integer unchanged |
| Seqs.IndexOf | iso-cv-camera.py:77 | the first position holding x: it holds x and no earlier position does |
| Text.ParseNatText | scripts/iso-cv-scanner.py:167 | reading back `str(n)` gives n |
| Text.Fixed2Text | iso-cv-camera.py:217 | `str` of a two-decimal float contains a '.' and no tab or newline, so it is one field |
| Text.IntTextRoundTrip | iso-cv-camera.py:217 | reading back `str(n)` of any integer, negative ones included, gives n |
| Text.Fixed2RoundTrip | iso-cv-camera.py:217 | reading back the written two-decimal float gives its value in hundredths |
| Text.SplitJoin | iso-cv-camera.py:217 | splitting tab-joined fields that hold no tab gives the fields back |
| Text.RowFields | iso-cv-camera.py:217 | a row of tab- and newline-free fields is exactly one line, and its fields are those fields |
| ArgMax.FirstMax | iso-cv-camera.py:166 | `np.argmax` returns a position of the maximum, and every earlier value is strictly smaller |
| ArgMax.FirstMaxUnique | iso-cv-camera.py:166 | those two properties determine the position: any such position is `FirstMax` |
| Contours.Largest | iso-cv-camera.py:191-193 | the chosen contour has maximal area, and every earlier contour has a strictly smaller area |
| Ledger.HeaderColumns | iso-cv-camera.py:118 | the header is one line whose six fields are the column names |
| Ledger.Open | iso-cv-camera.py:116-119 | the header is written when the ledger is absent and only then; an existing ledger is kept as it is; the result is well formed exactly when the file was absent or was itself well formed |
| Ledger.Rewrite | iso-cv-camera.py:220-224 | the in-place pass keeps the line count; each line containing the name becomes the new row, and each other line stays unchanged in its place |
| Ledger.Update | iso-cv-camera.py:219-227 | if the name occurs in the file's text, the line count is kept, every line containing the name becomes the row, and every other line is unchanged; otherwise the old lines are an unchanged prefix and the row is the single line added |
| Ledger.ContentContainsIffLine | iso-cv-camera.py:219 | for well-formed lines and a name without a newline, the name occurs in the file's text exactly when some line contains it |
| Ledger.AppendExtendsContent | iso-cv-camera.py:225-227 | on the append branch, the new text is the old text followed by exactly the row |
| Ledger.UpdateWellFormed | iso-cv-camera.py:219-227 | storing a one-line row keeps every entry a single line |
| Ledger.UpdateIdempotent | iso-cv-camera.py:219-227 | storing a row that mentions the name twice gives the same file as storing it once |
| Ledger.UpdateInstallsRow | iso-cv-camera.py:219-227 | after storing, the row is in the file, and every line containing the name equals the row |
| Ledger.HeaderSurvives | iso-cv-camera.py:118-227 | a dotted image name never matches the header, so the header stays the first line |
| Ledger.CameraRowLine | iso-cv-camera.py:217 | a result row is one line whose fields are the image name, length, area, mean, deviation and scale, in that order |
| Ledger.CameraRowFields | iso-cv-camera.py:217 | a result row is one line with as many fields as the header, starting with the image name; reading its fields back gives the length, area, integer mean, deviation and scale that were written |
| Ledger.CameraRowIdempotent | iso-cv-camera.py:217-227 | re-measuring an image with the same results leaves the ledger as it was after the first store |
| Ledger.UpdateKeyedKeepsOthers | iso-cv-camera.py:219-227 | the corrected store keeps every row stored under another name, contains the new row, and keeps one row per name |
| Ledger.UpdateKeyedFrame | iso-cv-camera.py:219-227 | the corrected store keeps every entry one line, and keeps the first line (the header) when it is stored under another name |
| Ledger.UpdatesAgree | iso-cv-camera.py:219-227 | when the lines containing the name are exactly the lines stored under it, the program's store and the corrected store write the same file |
| Ledger.ForeignRowOverwritten | iso-cv-camera.py:221-222 | a row stored under another name that contains the name as a substring is overwritten |
| Ledger.SubstringMatchLosesRow | iso-cv-camera.py:219-224 | storing "b.jpg" in a ledger holding "ab.jpg" replaces the "ab.jpg" row, while the corrected store keeps both |
| Ledger.ExampleLedgerBuilt | iso-cv-camera.py:219-227 | storing "b.jpg" and then "ab.jpg" into a new ledger appends one row for each |
| Ledger.SubstringMatchDuplicatesRow | iso-cv-camera.py:219-224 | in that ledger, storing "b.jpg" again overwrites the "ab.jpg" row too: the file ends with two "b.jpg" rows, so names are no longer unique, while the corrected store leaves the ledger as it was |
| Background.ThreshToZeroInv | iso-cv-camera.py:72 | pixels above 245 become 0, the others are kept, so no value exceeds 245 |
| Background.NonZero | iso-cv-camera.py:74 | the kept values hold no 0, and every non-zero value occurs exactly as often as in the image |
| Background.Keys | iso-cv-camera.py:77 | the Counter's keys are the distinct values of the vector, in order of their first occurrence |
| Background.MostCommon | iso-cv-camera.py:77 | `most_common(n)` yields min(n, #keys) distinct keys with non-increasing counts; each chosen key is at least as frequent as each key left out, and among equal counts the earlier keys are chosen and listed in the order they were first seen |
| Background.TieOrderExample | iso-cv-camera.py:77 | with two keys seen once each, the list in reverse order of first occurrence is not an admissible `most_common` answer |
| Background.Sort | iso-cv-camera.py:79 | the values in ascending order, as a permutation of the input |
| Background.SortedUnique | iso-cv-camera.py:79 | two sorted permutations of the same values are equal |
| Background.Middle | iso-cv-camera.py:79 | the lower half of the sorted values lies at or below the median and the upper half at or above it; for odd length the median is the middle value, for even length the mean of the two middle values |
| Background.MedianIsMiddle | iso-cv-camera.py:79 | the median of the values is the middle of every ascending arrangement of them |
| Background.Median | iso-cv-camera.py:79 | the median lies between the minimum and maximum, and for an odd count it is one of the values |
| Background.MedianIgnoresOrder | iso-cv-camera.py:77-79 | the median depends only on the multiset of values, not on the order `most_common` lists them in |
| Background.Top | iso-cv-camera.py:72-78 | exactly min(9, number of distinct non-zero pixel values) distinct non-zero pixel values, each at least as frequent as any non-zero value left out, and among equally frequent values those occurring first in the image are chosen; non-empty when some pixel is non-zero |
| Background.TopPrefersEarlier | iso-cv-camera.py:74-77 | a value chosen over an equally frequent one occurs earlier in the image |
| Background.NonZeroOrder | iso-cv-camera.py:74 | dropping the zeros keeps the order in which the non-zero values first occur |
| Background.BackgroundLevel | iso-cv-camera.py:72-79 | the level lies between the smallest and largest chosen value, so within 1..245 |
| Background.ThresholdBoundsLevel | iso-cv-camera.py:72-79 | an 8-bit image thresholded at 245 and then eroded (erosion only picks thresholded values) meets the pixel bound the level needs, and the level is in 1..245 when some eroded pixel is non-zero |
| Background.ShiftIsTranslation | iso-cv-camera.py:82 | the shift keeps the differences between pixels, and a pixel at the background level lands exactly on 240 |
| Naming.SplitExt | iso-cv-camera.py:58 | `os.path.splitext`: the name is split at its last '.' exactly when some non-dot precedes that '.', and otherwise the extension is empty; the two parts concatenate to the name, and the extension is one '.' followed by no other '.' |
| Naming.JpgLabel | iso-cv-camera.py:56-58 | a JPEG's label is its name without the last four characters, unless only dots precede ".jpg" |
| Naming.DateDigits | iso-cv-camera.py:60 | for a full EXIF date the digits are characters 0-3, 5-6 and 8-9, eight in all; never more than eight |
| Naming.GrayName | iso-cv-camera.py:62 | the gray name starts with the label and '_', ends with "_gray.jpg", and what lies between is exactly the digits of the date |
| Naming.GrayNameDeterminesLabelAndDate | iso-cv-camera.py:58-62 | with full dates, two images share a gray name only when they share label and date digits |
| Naming.CaseTwinsShareGrayName | iso-cv-camera.py:56-62 | "x.jpg" and "x.JPG" map to the same gray name |
| Naming.GrayStep | iso-cv-camera.py:56-65 | only ".jpg"/".JPG" names are handled; an image is converted exactly when its gray name is not yet in the gray directory |
| Naming.GrayStepOnce | iso-cv-camera.py:65 | once its gray image is written, the raw image is skipped |
| Naming.PlanFor | iso-cv-camera.py:130-139 | an image in out/good or out/redone is finished; otherwise a copy in gray/redo is used without detection; otherwise the gray image is used with detection |
| Naming.Stem | scripts/iso-cv-scanner.py:68 | for names of four or more characters the stem is the name without its last four characters |
| Naming.OutputNamesReplaceExtension | scripts/iso-cv-scanner.py:68 | the results file and the control image replace exactly the last four characters with ".txt" and "_output.jpg" |
| Naming.ShortNameStems | scripts/iso-cv-scanner.py:68 | for shorter names the negative stop counts from the end: "abc" gives "ab" and "ab" gives "" |
| Roi.CentredWindow | iso-cv-camera.py:173-177 | the crop is clipped to the image; for a centre in the image it spans max(0, y−q) to min(H, y+q) on each axis; it is at most 2q wide and contains the centre |
| Roi.Detected | iso-cv-camera.py:162-171 | the ROI is built around the first contour of maximal area among the cleaned contours, or among the uncleaned ones when cleaning left none |
| Roi.CameraRoi | iso-cv-camera.py:162-179 | a redo copy is used whole; otherwise the crop is at most 800 on a side and contains the integer centre of the detected contour |
| Roi.BoxWindow | scripts/iso-cv-scanner.py:111 | the crop spans max(0, ry−100) to min(H, ry+h+100) on each axis and contains the bounding box |
| Roi.ImageCentroid | scripts/iso-cv-scanner.py:152-153 | the centroid's integer part moves by exactly the crop origin |
| Roi.OriginIsWindowCorner | scripts/iso-cv-scanner.py:111-153 | the origin added to centroids is the crop's top-left corner |
| Roi.Crop | scripts/iso-cv-scanner.py:111 | the crop has the window's shape, and its pixel (r, c) is the image pixel at (r, c) plus the window's corner |
| Roi.PasteThenCrop | scripts/iso-cv-scanner.py:177 | writing the crop back and cutting the same window again gives the crop back, and every pixel outside the window is unchanged |
| Roi.PasteCropIdentity | scripts/iso-cv-scanner.py:111-177 | a general identity of the crop (line 111) and write-back (line 177) operations, not a step the program takes: writing an unmodified crop back where it was cut leaves the image unchanged |
| Scanner.EllipseLength | scripts/iso-cv-scanner.py:106 | the length estimate lies between sqrt(a0·a1·π) and the longer ellipse axis |
| Scanner.AcceptedOnly | scripts/iso-cv-scanner.py:99-107 | the objects are exactly the contours with more than 50 points and a length estimate above 100 |
| Scanner.LabelObjects | scripts/iso-cv-scanner.py:94-108 | the objects are numbered 1, 2, ..., n in contour order, with no gaps |
| Scanner.BaseCounts | scripts/iso-cv-scanner.py:122-128 | above 600 the counts are the nearest integers to 0.005L − 4 and 0.007L; otherwise to 0.015L − 4 and 0.03L − 8 |
| Scanner.MorphParams | scripts/iso-cv-scanner.py:122-128 | kernels are 3 and 9 above 600, 3 and 5 otherwise; above 600 the counts take the closing factors, otherwise the opening factors, as the code crosses them |
| Scanner.MorphMonotone | scripts/iso-cv-scanner.py:122-128 | within one size regime, with non-negative factors, a longer object never gets fewer iterations |
| Scanner.CountsNotClamped | scripts/iso-cv-scanner.py:107-128 | every accepted object with 100 < L < 300, and every one with 600 < L < 900, gets a closing count ≤ 0 |
| Scanner.CountExamples | scripts/iso-cv-scanner.py:122-128 | L = 200 gives counts −1 and −2; the closing count drops from 5 at L = 600 to −1 at L = 601 |
| Scanner.Shape | scripts/iso-cv-scanner.py:139-141 | the measured shape is the first contour of maximal area in the cleaned crop: every earlier contour is strictly smaller |
| Scanner.Length | scripts/iso-cv-scanner.py:154 | the length lies in (2r − 2, 2r] pixels over the scale, r being the enclosing radius |
| Scanner.HeaderColumns | scripts/iso-cv-scanner.py:69 | the results header is one line of nine fields, the column names |
| Scanner.ObjectRowFields | scripts/iso-cv-scanner.py:167 | an object's line is one line whose fields are its number, centroid, length, area, mean, deviation, minimum and maximum in column order, and its first field reads back as the object's number |
| Scanner.ResultsFileShape | scripts/iso-cv-scanner.py:166-167 | every line of the results file has nine fields, and line k belongs to object k |
| Scanner.PlanObject | scripts/iso-cv-scanner.py:111-128 | each object's crop contains every row and every column of its bounding box, and its kernels are 3 and 5 or 9 |
| Camera.Measure | iso-cv-camera.py:205-212 | at 70 pixels per mm the length is within 2/70 + 0.005 mm of the enclosing diameter, the area within 0.005 of the pixel area over 4900, the mean is truncated and the deviation rounded to two decimals |
| Camera.Step | iso-cv-camera.py:185-227 | finished images and ROIs without contours leave the ledger unchanged; otherwise the program's substring store adds at most one line and keeps in place every line that does not mention the name |
| Camera.StepInstallsRow | iso-cv-camera.py:217-227 | after a measured image, the row of its largest contour is in the ledger and every line mentioning the name is that row |
| Camera.StepKeepsLines | iso-cv-camera.py:116-227 | processing an image with a dotted single-field name keeps every entry one line and the header first |
| Camera.StepKeyed | iso-cv-camera.py:185-227 | the pass with the corrected store: the measured row is in the ledger and every row of another image is kept |
| Camera.OpenValid | iso-cv-camera.py:116-119 | a new ledger has the header first, single-line entries and one row per name |
| Camera.StepKeyedKeepsValid | iso-cv-camera.py:217-227 | with the corrected store, processing an image with a dotted single-field name keeps the header first, every entry one line, and one row per name |
| Camera.StepAsWritten | iso-cv-camera.py:219-227 | when no other row mentions the name, the pass with the corrected store writes exactly what the program writes |

## Left out

- OpenCV and numpy calls are not modelled. This covers thresholding,
  erosion and dilation, morphology, `findContours`, `contourArea`,
  `boundingRect`, `minEnclosingCircle`, `fitEllipse`, `moments`, `np.mean`,
  `np.std`, `np.min` and `np.max`, drawing, resizing, and EXIF reading. Their
  results are inputs: contour records, the eroded pixel vector, object
  statistics and the date string.
- Floating point is not modelled. Floats are the exact reals they
  approximate. `sqrt(a0·a1·π)` is an input field of the ellipse. `round` is
  half-to-even on the exact value. `str(float)` is modelled only for values
  with at most two decimals and below 1e16; Python's exponent notation and
  the text "-0.0" are not covered.
- Whole-image arithmetic and the uint8-to-float conversion of
  `img - (med - ref)` are not modelled: Background.Shift works on one pixel.
- File-system plumbing is not modelled: `os.walk`, `listdir`, `isfile`,
  `makedirs`, `imread`/`imwrite`, and the `.bak` backup `fileinput` keeps.
  Existence tests are membership in sets of names. A file is its sequence of
  lines.
- Error paths that crash or reuse stale values are excluded by
  preconditions, not modelled:
  - a missing EXIF date;
  - `np.median` of an empty list;
  - `np.argmax` of an empty contour list;
  - `m00 == 0` in the scanner's moments;
  - the bare `except: pass` that keeps the previous image's values;
  - a scanner object whose cleaned crop has no contour, whose row reuses the
    previous object's values.
- Scanner.MorphParams: the iteration counts are not clamped to at least 1.
  Clamping to at least 1 would be a reasonable guard, but the code does not clamp.
  Non-positive counts go to OpenCV as they are, and what OpenCV then does is
  not modelled.
- Background.Median: the even-length mean of the two middle values is exact,
  not a float.
- The commented-out manual redo workflow at the end of iso-cv-camera.py is
  not modelled.

## Findings

| source | as written | input that shows it | evidently intended | confidence | as-written member | corrected member |
|---|---|---|---|---|---|---|
| iso-cv-camera.py:219-224 | a row is replaced when the image name occurs anywhere in it as a substring | ledger rows for "ab.jpg", then a result for "b.jpg": the "ab.jpg" row is overwritten by the "b.jpg" row and its measurements are lost | replace only the row whose first field is the image name | not executed | Ledger.SubstringMatchLosesRow | Ledger.UpdateKeyedKeepsOthers |
| iso-cv-camera.py:219-224 | the same substring test, on a ledger holding "b.jpg" before "ab.jpg" | storing "b.jpg" again writes its row over both, leaving two "b.jpg" rows and none for "ab.jpg" | keep one row per image name | not executed | Ledger.SubstringMatchDuplicatesRow | Camera.StepKeyedKeepsValid |

=== FILE: argmax.dfy ===
/** `np.argmax` on a non-empty list of numbers: the first position that holds
    the largest value. Both programs use it to pick the largest contour by area,
    and `Counter.most_common` picks its next key the same way. */
module ArgMax {

  function FirstMax(xs: seq<real>): (k: nat)
    requires |xs| > 0
    ensures k < |xs|
    ensures forall j | 0 <= j < |xs| :: xs[j] <= xs[k]
    ensures forall j | 0 <= j < k :: xs[j] < xs[k]
  {
    if |xs| == 1 then 0
    else
      var k := FirstMax(xs[..|xs| - 1]);
      if xs[|xs| - 1] > xs[k] then |xs| - 1 else k
  }

  /** The two properties above single out one position: any position that holds
      a maximum and has no maximum before it is `FirstMax`. */
  lemma FirstMaxUnique(xs: seq<real>, k: nat)
    requires k < |xs|
    requires forall j | 0 <= j < |xs| :: xs[j] <= xs[k]
    requires forall j | 0 <= j < k :: xs[j] < xs[k]
    ensures FirstMax(xs) == k
  {
  }
}

=== FILE: background.dfy ===
/** Brightness normalisation of the camera pipeline (iso-cv-camera.py:72-82).
    The background level of an image is estimated from the pixels that survive
    thresholding and erosion: their nine most frequent values are taken, in the
    order `Counter.most_common` returns them, and the level is the median of
    those values. Every pixel is then shifted by the same amount so that the
    background lands on the reference brightness 240.

    Thresholding and erosion themselves are OpenCV calls; the model starts from
    the eroded image, flattened in row-major order. */
module Background {
  import opened Seqs
  import opened ArgMax

  /** Target background brightness (iso-cv-camera.py:52). */
  const Ref: int := 240
  /** `THRESH_TOZERO_INV` threshold (iso-cv-camera.py:72). */
  const Cutoff: int := 245
  /** How many frequent values are kept (iso-cv-camera.py:77). */
  const TopCount: nat := 9

  /** `THRESH_TOZERO_INV` at 245 on one pixel: brighter pixels become 0, the
      others are kept. Erosion only ever picks values out of the thresholded
      image, so the eroded image obeys the same bound. */
  function ThreshToZeroInv(p: int): (r: int)
    ensures r <= Cutoff
    ensures p <= Cutoff ==> r == p
    ensures p > Cutoff ==> r == 0
  {
    if p > Cutoff then 0 else p
  }

  /** Number of occurrences of `x` in `v`. */
  function Count(v: seq<int>, x: int): nat {
    multiset(v)[x]
  }

  /** `np.ravel(erosion[np.nonzero(erosion)])`: the non-zero pixels, in order. */
  function NonZero(v: seq<int>): (r: seq<int>)
    ensures 0 !in r
    ensures forall x | x != 0 :: Count(r, x) == Count(v, x)
    ensures forall x | x in r :: x in v
  {
    if |v| == 0 then []
    else
      var rest := NonZero(v[..|v| - 1]);
      var last := v[|v| - 1];
      assert v == v[..|v| - 1] + [last];
      if last == 0 then rest else rest + [last]
  }

  /** The keys of `Counter(v)`, in the order a Counter stores them: the order in
      which each value first occurs in `v`. */
  function Keys(v: seq<int>): (ks: seq<int>)
    ensures Distinct(ks)
    ensures forall x :: x in ks <==> x in v
    ensures forall a, b | 0 <= a < b < |ks| :: IndexOf(v, ks[a]) < IndexOf(v, ks[b])
  {
    if |v| == 0 then []
    else
      var init := v[..|v| - 1];
      var ks := Keys(init);
      var last := v[|v| - 1];
      assert v == init + [last];
      forall x | x in init ensures IndexOf(v, x) == IndexOf(init, x) {
        PrefixIndexOf(init, [last], x);
      }
      if last in ks then ks
      else
        assert IndexOf(v, last) == |v| - 1 by {
          assert v[..|v| - 1] == init;
        }
        ks + [last]
  }

  lemma PrefixIndexOf(a: seq<int>, b: seq<int>, x: int)
    requires x in a
    ensures IndexOf(a + b, x) == IndexOf(a, x)
  {
    var k := IndexOf(a, x);
    assert (a + b)[..k] == a[..k];
    FirstIndexUnique(a + b, x, k);
  }

  /** A position holding `x` with no `x` before it is the first occurrence. */
  lemma FirstIndexUnique(s: seq<int>, x: int, k: nat)
    requires k < |s| && s[k] == x && x !in s[..k]
    ensures IndexOf(s, x) == k
  {
  }

  /** The count of each key, as `np.argmax` sees them. */
  function Counts(ks: seq<int>, v: seq<int>): (cs: seq<real>)
    ensures |cs| == |ks|
    ensures forall k | 0 <= k < |ks| :: cs[k] == Count(v, ks[k]) as real
  {
    seq(|ks|, k requires 0 <= k < |ks| => Count(v, ks[k]) as real)
  }

  /** What `most_common` promises of the keys `top` it picks from `ks`. */
  predicate Chosen(ks: seq<int>, v: seq<int>, top: seq<int>) {
    && Distinct(top)
    && (forall x | x in top :: x in ks)
    // counts never increase along the result
    && (forall a, b | 0 <= a < b < |top| :: Count(v, top[a]) >= Count(v, top[b]))
    // every chosen key is at least as frequent as every key left out
    && (forall x, y | x in top && y in ks && y !in top :: Count(v, x) >= Count(v, y))
    // among equal counts, the keys chosen are the ones that come first
    && (forall a, b | 0 <= a < |ks| && 0 <= b < |ks| && ks[a] in top && ks[b] !in top
         && Count(v, ks[a]) == Count(v, ks[b]) :: a < b)
    // and, inside the result, keys of equal count keep their order in `ks`
    && (forall a, b | 0 <= a < b < |top| && Count(v, top[a]) == Count(v, top[b]) ::
         IndexOf(ks, top[a]) < IndexOf(ks, top[b]))
  }

  /** `Counter(v).most_common(n)` restricted to the keys `ks`: repeatedly take
      the key with the highest count, the earliest key among equal counts. */
  function MostCommon(ks: seq<int>, v: seq<int>, n: nat): (top: seq<int>)
    requires Distinct(ks)
    ensures |top| == if n <= |ks| then n else |ks|
    ensures Chosen(ks, v, top)
    decreases n
  {
    if n == 0 || |ks| == 0 then []
    else
      var j := FirstMax(Counts(ks, v));
      var rest := RemoveAt(ks, j);
      DistinctRemoveAt(ks, j);
      var tail := MostCommon(rest, v, n - 1);
      StepKeepsAll(ks, v, j, tail);
      [ks[j]] + tail
  }

  /** Two keys seen once each: `most_common` lists them in the order they were
      first seen, and the reversed list is not an admissible answer. */
  lemma TieOrderExample()
    ensures !Chosen([5, 7], [5, 7], [7, 5])
  {
    var ks, top := [5, 7], [7, 5];
    assert Count(ks, 7) == 1 == Count(ks, 5) by {
      assert multiset(ks) == multiset{5, 7};
    }
    assert IndexOf(ks, 7) == 1 && IndexOf(ks, 5) == 0;
    assert top[0] == 7 && top[1] == 5;
  }

  /** One step of `MostCommon`: putting the most frequent, earliest key in
      front of the result for the other keys keeps every property of the
      result. */
  lemma StepKeepsAll(ks: seq<int>, v: seq<int>, j: nat, tail: seq<int>)
    requires j < |ks| && Distinct(ks)
    requires forall k | 0 <= k < |ks| :: Counts(ks, v)[k] <= Counts(ks, v)[j]
    requires forall k | 0 <= k < j :: Counts(ks, v)[k] < Counts(ks, v)[j]
    requires Chosen(RemoveAt(ks, j), v, tail)
    ensures Chosen(ks, v, [ks[j]] + tail)
  {
    MaxCount(ks, v, j);
    StepKeepsOrder(ks, v, j, tail);
    StepKeepsCut(ks, v, j, tail);
    StepKeepsTies(ks, v, j, tail);
    StepKeepsTieOrder(ks, v, j, tail);
  }

  /** The step of `MostCommon` keeps keys of equal count in their order in
      `ks`: the front key is the first of its count, and removing it keeps
      the order of the others. */
  lemma StepKeepsTieOrder(ks: seq<int>, v: seq<int>, j: nat, tail: seq<int>)
    requires j < |ks| && Distinct(ks)
    requires forall k | 0 <= k < j :: Counts(ks, v)[k] < Counts(ks, v)[j]
    requires forall x | x in tail :: x in RemoveAt(ks, j)
    requires forall a, b | 0 <= a < b < |tail| && Count(v, tail[a]) == Count(v, tail[b]) ::
      IndexOf(RemoveAt(ks, j), tail[a]) < IndexOf(RemoveAt(ks, j), tail[b])
    ensures forall x | x in [ks[j]] + tail :: x in ks
    ensures forall a, b | 0 <= a < b < |[ks[j]] + tail| &&
      Count(v, ([ks[j]] + tail)[a]) == Count(v, ([ks[j]] + tail)[b]) ::
      IndexOf(ks, ([ks[j]] + tail)[a]) < IndexOf(ks, ([ks[j]] + tail)[b])
  {
    var top := [ks[j]] + tail;
    FrontFirstOfTies(ks, v, j, tail);
    TailKeepsTieOrder(ks, v, j, tail);
    DistinctIndexOf(ks, j);
    forall a, b | 0 <= a < b < |top| && Count(v, top[a]) == Count(v, top[b])
      ensures IndexOf(ks, top[a]) < IndexOf(ks, top[b])
    {
      assert top[b] == tail[b - 1];
      if a > 0 {
        assert top[a] == tail[a - 1];
      }
    }
  }

  /** Every key of the tail as frequent as the front key comes after it in `ks`. */
  lemma FrontFirstOfTies(ks: seq<int>, v: seq<int>, j: nat, tail: seq<int>)
    requires j < |ks| && Distinct(ks)
    requires forall k | 0 <= k < j :: Counts(ks, v)[k] < Counts(ks, v)[j]
    requires forall x | x in tail :: x in RemoveAt(ks, j)
    ensures forall x | x in tail :: x in ks
    ensures forall b | 0 <= b < |tail| && Count(v, tail[b]) == Count(v, ks[j]) ::
      j < IndexOf(ks, tail[b])
  {
    var rest := RemoveAt(ks, j);
    forall b | 0 <= b < |tail| && Count(v, tail[b]) == Count(v, ks[j])
      ensures tail[b] in ks && j < IndexOf(ks, tail[b])
    {
      var y := tail[b];
      RemoveAtIndexOf(ks, j, y);
      var ib := IndexOf(ks, y);
      assert ib != j by { DistinctRemoveAt(ks, j); }
      // an equally frequent key before `j` would have been picked instead
      assert Counts(ks, v)[ib] == Counts(ks, v)[j];
    }
    forall x | x in tail ensures x in ks {
      RemoveAtIndexOf(ks, j, x);
    }
  }

  /** Removing a key keeps the order of the others. */
  lemma TailKeepsTieOrder(ks: seq<int>, v: seq<int>, j: nat, tail: seq<int>)
    requires j < |ks| && Distinct(ks)
    requires forall x | x in tail :: x in RemoveAt(ks, j)
    requires forall a, b | 0 <= a < b < |tail| && Count(v, tail[a]) == Count(v, tail[b]) ::
      IndexOf(RemoveAt(ks, j), tail[a]) < IndexOf(RemoveAt(ks, j), tail[b])
    ensures forall x | x in tail :: x in ks
    ensures forall a, b | 0 <= a < b < |tail| && Count(v, tail[a]) == Count(v, tail[b]) ::
      IndexOf(ks, tail[a]) < IndexOf(ks, tail[b])
  {
    var rest := RemoveAt(ks, j);
    forall x | x in tail ensures x in ks && IndexOf(ks, x) == RemovedIndex(j, IndexOf(rest, x)) {
      RemoveAtIndexOf(ks, j, x);
    }
  }

  /** The position in `ks` of the key at position `k` of `RemoveAt(ks, j)`. */
  function RemovedIndex(j: nat, k: nat): nat {
    if k < j then k else k + 1
  }

  /** Removing a key moves each later key one place forward. */
  lemma RemoveAtIndexOf(ks: seq<int>, j: nat, x: int)
    requires j < |ks| && Distinct(ks)
    requires x in RemoveAt(ks, j)
    ensures x in ks && IndexOf(ks, x) == RemovedIndex(j, IndexOf(RemoveAt(ks, j), x))
  {
    var k := IndexOf(RemoveAt(ks, j), x);
    assert ks[RemovedIndex(j, k)] == x;
    DistinctIndexOf(ks, RemovedIndex(j, k));
  }

  /** In a sequence without repeats, the first occurrence of `s[k]` is `k`. */
  lemma DistinctIndexOf(s: seq<int>, k: nat)
    requires k < |s| && Distinct(s)
    ensures IndexOf(s, s[k]) == k
  {
    FirstIndexUnique(s, s[k], k);
  }

  lemma DistinctRemoveAt(ks: seq<int>, j: nat)
    requires j < |ks| && Distinct(ks)
    ensures Distinct(RemoveAt(ks, j))
    ensures forall x | x in RemoveAt(ks, j) :: x in ks && x != ks[j]
    ensures forall y | y in ks && y != ks[j] :: y in RemoveAt(ks, j)
  {
    var rest := RemoveAt(ks, j);
    forall y | y in ks && y != ks[j] ensures y in rest {
      var b :| 0 <= b < |ks| && ks[b] == y;
      assert rest[if b < j then b else b - 1] == y;
    }
    forall x | x in rest ensures x in ks && x != ks[j] {
      var a :| 0 <= a < |rest| && rest[a] == x;
      assert ks[if a < j then a else a + 1] == x;
    }
  }

  /** The step of `MostCommon` keeps the result distinct, inside `ks` and
      ordered by non-increasing count. */
  lemma StepKeepsOrder(ks: seq<int>, v: seq<int>, j: nat, tail: seq<int>)
    requires j < |ks| && Distinct(ks)
    requires forall x | x in ks :: Count(v, x) <= Count(v, ks[j])
    requires Distinct(tail)
    requires forall x | x in tail :: x in RemoveAt(ks, j)
    requires forall a, b | 0 <= a < b < |tail| :: Count(v, tail[a]) >= Count(v, tail[b])
    ensures Distinct([ks[j]] + tail)
    ensures forall x | x in [ks[j]] + tail :: x in ks
    ensures forall a, b | 0 <= a < b < |[ks[j]] + tail| ::
      Count(v, ([ks[j]] + tail)[a]) >= Count(v, ([ks[j]] + tail)[b])
  {
    DistinctRemoveAt(ks, j);
    ConsDistinct(ks[j], tail);
    ConsByCount(v, ks[j], tail);
  }

  lemma ConsDistinct(h: int, tail: seq<int>)
    requires Distinct(tail) && h !in tail
    ensures Distinct([h] + tail)
  {
    var top := [h] + tail;
    forall a, b | 0 <= a < b < |top| ensures top[a] != top[b] {
      assert top[b] == tail[b - 1];
      if a > 0 {
        assert top[a] == tail[a - 1];
      }
    }
  }

  /** A key at least as frequent as all of a count-ordered tail can go before it. */
  lemma ConsByCount(v: seq<int>, h: int, tail: seq<int>)
    requires forall x | x in tail :: Count(v, x) <= Count(v, h)
    requires forall a, b | 0 <= a < b < |tail| :: Count(v, tail[a]) >= Count(v, tail[b])
    ensures forall a, b | 0 <= a < b < |[h] + tail| ::
      Count(v, ([h] + tail)[a]) >= Count(v, ([h] + tail)[b])
  {
    var top := [h] + tail;
    forall a, b | 0 <= a < b < |top| ensures Count(v, top[a]) >= Count(v, top[b]) {
      assert top[b] == tail[b - 1];
      if a > 0 {
        assert top[a] == tail[a - 1];
      }
    }
  }

  /** The step of `MostCommon` keeps every chosen key at least as frequent as
      every key left out. */
  lemma StepKeepsCut(ks: seq<int>, v: seq<int>, j: nat, tail: seq<int>)
    requires j < |ks| && Distinct(ks)
    requires forall x | x in ks :: Count(v, x) <= Count(v, ks[j])
    requires forall x, y | x in tail && y in RemoveAt(ks, j) && y !in tail :: Count(v, x) >= Count(v, y)
    ensures forall x, y | x in [ks[j]] + tail && y in ks && y !in [ks[j]] + tail ::
      Count(v, x) >= Count(v, y)
  {
    DistinctRemoveAt(ks, j);
  }

  /** The step of `MostCommon` keeps the earliest keys among equal counts. */
  lemma StepKeepsTies(ks: seq<int>, v: seq<int>, j: nat, tail: seq<int>)
    requires j < |ks| && Distinct(ks)
    requires forall k | 0 <= k < j :: Counts(ks, v)[k] < Counts(ks, v)[j]
    requires forall x | x in ks :: Count(v, x) <= Count(v, ks[j])
    requires forall a, b | 0 <= a < |RemoveAt(ks, j)| && 0 <= b < |RemoveAt(ks, j)|
      && RemoveAt(ks, j)[a] in tail && RemoveAt(ks, j)[b] !in tail
      && Count(v, RemoveAt(ks, j)[a]) == Count(v, RemoveAt(ks, j)[b]) :: a < b
    ensures forall a, b | 0 <= a < |ks| && 0 <= b < |ks| && ks[a] in [ks[j]] + tail
      && ks[b] !in [ks[j]] + tail && Count(v, ks[a]) == Count(v, ks[b]) :: a < b
  {
    var rest := RemoveAt(ks, j);
    var top := [ks[j]] + tail;
    forall a, b | 0 <= a < |ks| && 0 <= b < |ks| && ks[a] in top && ks[b] !in top
      && Count(v, ks[a]) == Count(v, ks[b])
      ensures a < b
    {
      assert b != j;
      assert b < j ==> Counts(ks, v)[b] < Counts(ks, v)[j];
      if a != j {
        assert ks[a] != ks[j];
        var a', b' := if a < j then a else a - 1, if b < j then b else b - 1;
        assert rest[a'] == ks[a] && rest[b'] == ks[b];
        assert ks[a] in tail;
        assert a' < b';
      }
    }
  }

  /** The key `np.argmax` picks has the largest count among all keys. */
  lemma MaxCount(ks: seq<int>, v: seq<int>, j: nat)
    requires j < |ks|
    requires forall k | 0 <= k < |ks| :: Counts(ks, v)[k] <= Counts(ks, v)[j]
    ensures forall x | x in ks :: Count(v, x) <= Count(v, ks[j])
  {
    forall x | x in ks ensures Count(v, x) <= Count(v, ks[j]) {
      var k :| 0 <= k < |ks| && ks[k] == x;
      assert Counts(ks, v)[k] <= Counts(ks, v)[j];
    }
  }

  // ---------------------------------------------------------------------------
  // np.median
  // ---------------------------------------------------------------------------

  predicate Sorted(s: seq<int>) {
    forall a, b | 0 <= a < b < |s| :: s[a] <= s[b]
  }

  function Insert(x: int, s: seq<int>): (r: seq<int>)
    requires Sorted(s)
    ensures Sorted(r)
    ensures multiset(r) == multiset(s) + multiset{x}
  {
    if |s| == 0 then [x]
    else if x <= s[0] then [x] + s
    else
      assert s == [s[0]] + s[1..];
      var t := Insert(x, s[1..]);
      InsertTailBound(x, s, t);
      [s[0]] + t
  }

  /** Everything inserted behind the head of a sorted sequence is at least the head. */
  lemma InsertTailBound(x: int, s: seq<int>, t: seq<int>)
    requires Sorted(s) && |s| > 0 && s[0] < x
    requires multiset(t) == multiset(s[1..]) + multiset{x}
    ensures forall k | 0 <= k < |t| :: s[0] <= t[k]
  {
    forall k | 0 <= k < |t| ensures s[0] <= t[k] {
      assert t[k] in multiset(t);
      if t[k] != x {
        assert t[k] in multiset(s[1..]);
        assert t[k] in s[1..];
      }
    }
  }

  /** The values in ascending order. */
  function Sort(s: seq<int>): (r: seq<int>)
    ensures Sorted(r)
    ensures multiset(r) == multiset(s)
  {
    if |s| == 0 then []
    else
      assert s == [s[0]] + s[1..];
      Insert(s[0], Sort(s[1..]))
  }

  /** Two sorted sequences with the same elements are equal. */
  lemma {:induction false} SortedUnique(x: seq<int>, y: seq<int>)
    requires Sorted(x) && Sorted(y)
    requires multiset(x) == multiset(y)
    ensures x == y
  {
    if |x| > 0 {
      SortedSameHead(x, y);
      TailMultiset(x);
      TailMultiset(y);
      SortedUnique(x[1..], y[1..]);
      assert x == [x[0]] + x[1..];
      assert y == [y[0]] + y[1..];
    } else {
      assert |y| == 0;
    }
  }

  /** Two sorted sequences with the same elements start with the same value. */
  lemma SortedSameHead(x: seq<int>, y: seq<int>)
    requires Sorted(x) && Sorted(y) && |x| > 0
    requires multiset(x) == multiset(y)
    ensures |y| > 0 && x[0] == y[0]
  {
    assert x[0] in multiset(y);
    assert y[0] in multiset(x);
  }

  lemma TailMultiset(x: seq<int>)
    requires |x| > 0
    ensures multiset(x[1..]) == multiset(x) - multiset{x[0]}
  {
    assert x == [x[0]] + x[1..];
  }

  function MinOf(s: seq<int>): (m: int)
    requires |s| > 0
    ensures m in s && forall x | x in s :: m <= x
  {
    if |s| == 1 then s[0]
    else
      var m := MinOf(s[1..]);
      assert s == [s[0]] + s[1..];
      if s[0] <= m then s[0] else m
  }

  function MaxOf(s: seq<int>): (m: int)
    requires |s| > 0
    ensures m in s && forall x | x in s :: x <= m
  {
    if |s| == 1 then s[0]
    else
      var m := MaxOf(s[1..]);
      assert s == [s[0]] + s[1..];
      if m <= s[0] then s[0] else m
  }

  /** The middle of a sorted sequence: its middle value, or the mean of its
      two middle values when its length is even. */
  function Middle(s: seq<int>): (med: real)
    requires |s| > 0 && Sorted(s)
    // the lower half lies at or below the result, the upper half at or above
    ensures forall k | 0 <= k <= (|s| - 1) / 2 :: s[k] as real <= med
    ensures forall k | |s| / 2 <= k < |s| :: med <= s[k] as real
    ensures |s| % 2 == 1 ==> med == s[|s| / 2] as real
    ensures |s| % 2 == 0 ==> med == (s[|s| / 2 - 1] + s[|s| / 2]) as real / 2.0
  {
    var n := |s|;
    assert s[(n - 1) / 2] <= s[n / 2];
    if n % 2 == 1 then s[n / 2] as real
    else (s[n / 2 - 1] + s[n / 2]) as real / 2.0
  }

  /** `np.median(g)`: the middle of `g` sorted. */
  function Median(g: seq<int>): (med: real)
    requires |g| > 0
    ensures MinOf(g) as real <= med <= MaxOf(g) as real
    ensures |g| % 2 == 1 ==> exists k | 0 <= k < |g| :: g[k] as real == med
  {
    var s := Sort(g);
    var n := |s|;
    assert |s| == |g| by {
      assert |multiset(s)| == |multiset(g)|;
    }
    assert s[0] in g && s[n - 1] in g && s[n / 2] in g by {
      assert s[0] in multiset(s) && s[n - 1] in multiset(s) && s[n / 2] in multiset(s);
    }
    Middle(s)
  }

  /** `np.median` is the middle of any ascending arrangement of the values. */
  lemma MedianIsMiddle(g: seq<int>, s: seq<int>)
    requires |g| > 0 && Sorted(s) && multiset(s) == multiset(g)
    ensures |s| == |g| && Median(g) == Middle(s)
  {
    assert |multiset(s)| == |multiset(g)|;
    SortedUnique(Sort(g), s);
  }

  /** The median depends only on which values occur how often, not on their
      order: reordering the most-common list cannot change the estimate. */
  lemma MedianIgnoresOrder(a: seq<int>, b: seq<int>)
    requires |a| > 0 && multiset(a) == multiset(b)
    ensures |b| > 0 && Median(a) == Median(b)
  {
    assert |multiset(a)| == |multiset(b)|;
    SortedUnique(Sort(a), Sort(b));
  }

  // ---------------------------------------------------------------------------
  // Background level and shift
  // ---------------------------------------------------------------------------

  /** `g`: the nine most common non-zero values of the eroded image. */
  function Top(eroded: seq<int>): (g: seq<int>)
    // nine values, or all distinct non-zero values when there are fewer
    ensures |g| == if TopCount <= |Keys(NonZero(eroded))| then TopCount else |Keys(NonZero(eroded))|
    ensures Distinct(g)
    ensures forall x | x in g :: x != 0 && x in eroded
    ensures forall x, y | x in g && y in eroded && y != 0 && y !in g :: Count(eroded, x) >= Count(eroded, y)
    // among equal counts, the values that occur first in the image are chosen
    ensures forall x, y | x in g && x in eroded && y in eroded && y != 0 && y !in g
      && Count(eroded, x) == Count(eroded, y) :: IndexOf(eroded, x) < IndexOf(eroded, y)
    ensures (exists k | 0 <= k < |eroded| :: eroded[k] != 0) ==> |g| > 0
  {
    TopFacts(eroded);
    MostCommon(Keys(NonZero(eroded)), NonZero(eroded), TopCount)
  }

  /** The properties of `Top`, proved on the `MostCommon` call it makes. */
  lemma TopFacts(eroded: seq<int>)
    ensures var g := MostCommon(Keys(NonZero(eroded)), NonZero(eroded), TopCount);
      && |g| == (if TopCount <= |Keys(NonZero(eroded))| then TopCount else |Keys(NonZero(eroded))|)
      && Distinct(g)
      && (forall x | x in g :: x != 0 && x in eroded)
      && (forall x, y | x in g && y in eroded && y != 0 && y !in g :: Count(eroded, x) >= Count(eroded, y))
      && (forall x, y | x in g && x in eroded && y in eroded && y != 0 && y !in g
           && Count(eroded, x) == Count(eroded, y) :: IndexOf(eroded, x) < IndexOf(eroded, y))
      && ((exists k | 0 <= k < |eroded| :: eroded[k] != 0) ==> |g| > 0)
  {
    NonZeroKeys(eroded);
    TopCut(eroded);
    TopPrefersEarlier(eroded);
  }

  /** The cut of `MostCommon`, read back on the image: the chosen values are
      non-zero pixel values, each at least as frequent as every non-zero value
      left out. */
  lemma TopCut(eroded: seq<int>)
    ensures var vec := NonZero(eroded);
      var g := MostCommon(Keys(vec), vec, TopCount);
      && (forall x | x in g :: x != 0 && x in eroded)
      && (forall x, y | x in g && y in eroded && y != 0 && y !in g :: Count(eroded, x) >= Count(eroded, y))
  {
    var vec := NonZero(eroded);
    var ks := Keys(vec);
    var g := MostCommon(ks, vec, TopCount);
    forall x | x in g ensures x != 0 && x in eroded {
      assert x in vec;
    }
    forall x, y | x in g && y in eroded && y != 0 && y !in g
      ensures Count(eroded, x) >= Count(eroded, y)
    {
      NonZeroHas(eroded, y);
      assert y in ks;
      assert x in vec;
    }
  }

  /** The tie rule of `MostCommon`, read back on the image: a chosen value
      occurs in the image before any equally frequent value left out. */
  lemma TopPrefersEarlier(eroded: seq<int>)
    ensures var vec := NonZero(eroded);
      var g := MostCommon(Keys(vec), vec, TopCount);
      forall x, y | x in g && y in eroded && y != 0 && y !in g && Count(eroded, x) == Count(eroded, y) ::
        x in eroded && IndexOf(eroded, x) < IndexOf(eroded, y)
  {
    var vec := NonZero(eroded);
    var ks := Keys(vec);
    var g := MostCommon(ks, vec, TopCount);
    forall x, y | x in g && y in eroded && y != 0 && y !in g && Count(eroded, x) == Count(eroded, y)
      ensures x in eroded && IndexOf(eroded, x) < IndexOf(eroded, y)
    {
      assert x in ks && x != 0;
      NonZeroOrder(eroded, x, y);
      assert y in ks;
      var a, b := IndexOf(ks, x), IndexOf(ks, y);
      assert Count(vec, ks[a]) == Count(vec, ks[b]);
      assert a < b;
    }
  }

  /** `NonZero` keeps the order in which values first occur. */
  lemma {:induction false} NonZeroOrder(v: seq<int>, x: int, y: int)
    requires x != 0 && y != 0 && x in v && y in v
    ensures x in NonZero(v) && y in NonZero(v)
    ensures IndexOf(NonZero(v), x) < IndexOf(NonZero(v), y) ==> IndexOf(v, x) < IndexOf(v, y)
  {
    NonZeroHas(v, x);
    NonZeroHas(v, y);
    var init, last := v[..|v| - 1], v[|v| - 1];
    assert v == init + [last];
    var r, ri := NonZero(v), NonZero(init);
    assert r == if last == 0 then ri else ri + [last];
    if x in init && y in init {
      NonZeroOrder(init, x, y);
      PrefixIndexOf(init, [last], x);
      PrefixIndexOf(init, [last], y);
      if last != 0 {
        PrefixIndexOf(ri, [last], x);
        PrefixIndexOf(ri, [last], y);
      }
    } else if x in init {
      assert y == last;
      FirstIndexUnique(v, y, |v| - 1);
    } else {
      assert x == last && x !in ri;
      FirstIndexUnique(v, x, |v| - 1);
      FirstIndexUnique(r, x, |ri|);
      if y in init {
        NonZeroHas(init, y);
        PrefixIndexOf(ri, [last], y);
      }
    }
  }

  /** Every non-zero value of `v` is kept by `NonZero`. */
  lemma NonZeroHas(v: seq<int>, x: int)
    requires x != 0 && x in v
    ensures x in NonZero(v)
  {
    assert x in multiset(v);
    assert Count(NonZero(v), x) == Count(v, x);
  }

  /** A non-zero pixel makes the Counter non-empty. */
  lemma NonZeroKeys(eroded: seq<int>)
    ensures (exists k | 0 <= k < |eroded| :: eroded[k] != 0) ==> |Keys(NonZero(eroded))| > 0
  {
    if exists k | 0 <= k < |eroded| :: eroded[k] != 0 {
      var k :| 0 <= k < |eroded| && eroded[k] != 0;
      assert Count(NonZero(eroded), eroded[k]) == Count(eroded, eroded[k]) > 0;
      assert eroded[k] in Keys(NonZero(eroded));
    }
  }

  /** `med`: the estimated background level. With pixels that never exceed the
      cutoff, it lies between the smallest and largest chosen value, hence in
      1..245. */
  function BackgroundLevel(eroded: seq<int>): (med: real)
    requires forall k | 0 <= k < |eroded| :: 0 <= eroded[k] <= Cutoff
    requires exists k | 0 <= k < |eroded| :: eroded[k] != 0
    ensures |Top(eroded)| > 0
    ensures MinOf(Top(eroded)) as real <= med <= MaxOf(Top(eroded)) as real
    ensures 1.0 <= med <= Cutoff as real
  {
    TopInRange(eroded);
    Median(Top(eroded))
  }

  /** The chosen values are pixel values, hence in 1..245. */
  lemma TopInRange(eroded: seq<int>)
    requires forall k | 0 <= k < |eroded| :: 0 <= eroded[k] <= Cutoff
    requires exists k | 0 <= k < |eroded| :: eroded[k] != 0
    ensures |Top(eroded)| > 0
    ensures 1 <= MinOf(Top(eroded)) && MaxOf(Top(eroded)) <= Cutoff
  {
    var g := Top(eroded);
    var lo, hi := MinOf(g), MaxOf(g);
    assert lo in eroded && hi in eroded;
  }

  /** The whole (flattened) image after `THRESH_TOZERO_INV`. */
  function ThreshImage(img: seq<int>): (r: seq<int>)
    ensures |r| == |img|
    ensures forall k | 0 <= k < |img| :: r[k] == ThreshToZeroInv(img[k])
  {
    seq(|img|, k requires 0 <= k < |img| => ThreshToZeroInv(img[k]))
  }

  /** The pipeline of lines 72-79 is defined on every 8-bit image: thresholding
      bounds the pixels by the cutoff, erosion (an OpenCV call, an input here)
      only picks values of the thresholded image, so the eroded image meets the
      bound `BackgroundLevel` asks for, and the level lies in 1..245 as soon as
      some eroded pixel is non-zero. */
  lemma ThresholdBoundsLevel(img: seq<int>, eroded: seq<int>)
    requires forall k | 0 <= k < |img| :: 0 <= img[k]
    requires forall k | 0 <= k < |eroded| :: eroded[k] in ThreshImage(img)
    requires exists k | 0 <= k < |eroded| :: eroded[k] != 0
    ensures forall k | 0 <= k < |eroded| :: 0 <= eroded[k] <= Cutoff
    ensures 1.0 <= BackgroundLevel(eroded) <= Cutoff as real
  {
    var t := ThreshImage(img);
    forall k | 0 <= k < |eroded| ensures 0 <= eroded[k] <= Cutoff {
      var m :| 0 <= m < |t| && t[m] == eroded[k];
    }
  }

  /** `img - (med - ref)` on one pixel: the correction moves every pixel by the
      same amount, the one that carries the background level onto `Ref`. */
  function Shift(p: int, med: real): (q: real)
    ensures q - p as real == Ref as real - med
  {
    p as real - (med - Ref as real)
  }

  /** The correction is a translation: differences between pixels are kept,
      and a pixel at the background level lands exactly on the reference. */
  lemma ShiftIsTranslation(p1: int, p2: int, med: real)
    ensures Shift(p1, med) - Shift(p2, med) == (p1 - p2) as real
    ensures p1 as real == med ==> Shift(p1, med) == Ref as real
  {
  }
}

=== FILE: camera.dfy ===
/** One pass of the camera program over one gray image after its ROI is cut
    (iso-cv-camera.py:185-227): the largest contour in the ROI is measured,
    its length and area converted to millimetres at 70 pixels per millimetre,
    and its row stored in the ledger. Images that are already finished, and
    ROIs without any contour, leave the ledger as it was. */
module Camera {
  import opened Text
  import opened Numeric
  import opened Contours
  import opened Naming
  import opened Ledger

  /** Pixels per millimetre (iso-cv-camera.py:127). */
  const Scale: nat := 70

  /** The measured row of a contour: enclosing-circle radius (truncated)
      doubled over the scale for the length, area over the squared scale, the
      truncated mean and the rounded standard deviation of the masked ROI. */
  function Measure(conc: Contour, mean: real, sd: real): (m: CameraRecord)
    ensures m.scale == Scale
    ensures 0.0 <= conc.radius ==>
      -(2.0 / 70.0 + 0.005) <= m.lengthH as real / 100.0 - 2.0 * conc.radius / 70.0 <= 0.005
    ensures -0.005 <= m.areaH as real / 100.0 - conc.area / 4900.0 <= 0.005
    ensures 0.0 <= mean ==> m.mean as real <= mean < m.mean as real + 1.0
    ensures -0.005 <= m.sdH as real / 100.0 - sd <= 0.005
  {
    var radius := Trunc(conc.radius);
    var len := (radius * 2) as real / Scale as real;
    assert 0.0 <= conc.radius ==> 2.0 * conc.radius / 70.0 - 2.0 / 70.0 < len <= 2.0 * conc.radius / 70.0;
    var area := conc.area / Scale as real / Scale as real;
    assert area == conc.area / 4900.0;
    CameraRecord(Round2(len), Round2(area), Trunc(mean), Round2(sd), Scale)
  }

  /** The row the program stores for an image whose ROI holds contours. */
  function RowFor(i: string, contours2: seq<Contour>, mean: real, sd: real): string
    requires |contours2| > 0
  {
    CameraRow(i, Measure(contours2[Largest(contours2)], mean, sd))
  }

  /** What happened to the ledger for one image, as the program does it: the
      row replaces every line that contains the image name anywhere, or is
      appended when no line does (iso-cv-camera.py:219-224). */
  function Step(lines: seq<string>, i: string, plan: Plan,
                contours2: seq<Contour>, mean: real, sd: real): (r: seq<string>)
    ensures plan.Finished? || |contours2| == 0 ==> r == lines
    ensures !plan.Finished? && |contours2| > 0 ==>
      |lines| <= |r| <= |lines| + 1 &&
      forall k | 0 <= k < |lines| && !Contains(lines[k], i) :: r[k] == lines[k]
  {
    if plan.Finished? || |contours2| == 0 then lines
    else Update(lines, i, RowFor(i, contours2, mean, sd))
  }

  /** After a measured image, its row is in the ledger and every line that
      mentions the name is that row. */
  lemma StepInstallsRow(lines: seq<string>, i: string, plan: Plan,
                        contours2: seq<Contour>, mean: real, sd: real)
    requires WellFormed(lines)
    requires IsField(i) && |i| > 0
    requires !plan.Finished? && |contours2| > 0
    ensures RowFor(i, contours2, mean, sd) in Step(lines, i, plan, contours2, mean, sd)
    ensures forall l | l in Step(lines, i, plan, contours2, mean, sd) && Contains(l, i) ::
      l == RowFor(i, contours2, mean, sd)
  {
    var m := Measure(contours2[Largest(contours2)], mean, sd);
    CameraRowFields(i, m);
    ContainsPrefix(CameraRow(i, m), i);
    UpdateInstallsRow(lines, i, CameraRow(i, m));
  }

  /** Processing an image whose name is a single field containing a '.' (all
      gray names end in ".jpg") keeps every entry one line and the header
      first. It does not keep the names unique: see
      Ledger.SubstringMatchDuplicatesRow. */
  lemma StepKeepsLines(lines: seq<string>, i: string, plan: Plan,
                       contours2: seq<Contour>, mean: real, sd: real)
    requires WellFormed(lines) && |lines| > 0 && lines[0] == Header
    requires IsField(i) && '.' in i
    ensures WellFormed(Step(lines, i, plan, contours2, mean, sd))
    ensures Step(lines, i, plan, contours2, mean, sd)[0] == Header
  {
    if !plan.Finished? && |contours2| > 0 {
      var m := Measure(contours2[Largest(contours2)], mean, sd);
      CameraRowFields(i, m);
      UpdateWellFormed(lines, i, CameraRow(i, m));
      HeaderSurvives(lines, i, CameraRow(i, m));
    }
  }

  /** The same pass with the corrected store, which replaces only the row
      stored under the image name. */
  function StepKeyed(lines: seq<string>, i: string, plan: Plan,
                     contours2: seq<Contour>, mean: real, sd: real): (r: seq<string>)
    ensures plan.Finished? || |contours2| == 0 ==> r == lines
    ensures !plan.Finished? && |contours2| > 0 ==>
      RowFor(i, contours2, mean, sd) in r &&
      forall k | 0 <= k < |lines| && Key(lines[k]) != i :: lines[k] in r
  {
    if plan.Finished? || |contours2| == 0 then lines
    else
      var row := RowFor(i, contours2, mean, sd);
      UpdateKeyedKeeps(lines, i, row);
      UpdateKeyed(lines, i, row)
  }

  /** A ledger as the program means to keep it: the header first, every entry
      one line, and at most one row per image name. */
  predicate Valid(lines: seq<string>) {
    |lines| > 0 && lines[0] == Header && WellFormed(lines) && UniqueKeys(lines)
  }

  /** A new ledger is valid. */
  lemma OpenValid()
    ensures Valid(Open(Absent))
  {
    HeaderColumns();
  }

  /** With the corrected store, processing an image whose name is a single
      field containing a '.' keeps the ledger valid: the header first and at
      most one row per name. */
  lemma StepKeyedKeepsValid(lines: seq<string>, i: string, plan: Plan,
                            contours2: seq<Contour>, mean: real, sd: real)
    requires Valid(lines)
    requires IsField(i) && '.' in i
    ensures Valid(StepKeyed(lines, i, plan, contours2, mean, sd))
  {
    if !plan.Finished? && |contours2| > 0 {
      var m := Measure(contours2[Largest(contours2)], mean, sd);
      var row := CameraRow(i, m);
      CameraRowFields(i, m);
      HeaderColumns();
      ColumnsAreFields();
      assert '.' !in Key(lines[0]);
      UpdateKeyedKeepsOthers(lines, i, row);
      UpdateKeyedFrame(lines, i, row);
    }
  }

  /** When no row other than the image's own mentions its name, the corrected
      pass writes exactly what the program writes. */
  lemma StepAsWritten(lines: seq<string>, i: string, plan: Plan,
                      contours2: seq<Contour>, mean: real, sd: real)
    requires WellFormed(lines)
    requires |i| > 0 && Newline !in i
    requires forall k | 0 <= k < |lines| :: Contains(lines[k], i) <==> Key(lines[k]) == i
    ensures StepKeyed(lines, i, plan, contours2, mean, sd) == Step(lines, i, plan, contours2, mean, sd)
  {
    if !plan.Finished? && |contours2| > 0 {
      UpdatesAgree(lines, i, RowFor(i, contours2, mean, sd));
    }
  }
}

=== FILE: contours.dfy ===
/** What the model keeps of an OpenCV contour: the numbers the programs read
    off it. The contours themselves, and every number below, come from OpenCV
    (`findContours`, `contourArea`, `boundingRect`, `minEnclosingCircle`,
    `fitEllipse`) and are inputs here. */
module Contours {
  import opened ArgMax

  /** `cv2.boundingRect`: top-left corner, width and height. */
  datatype Rect = Rect(x: int, y: int, w: nat, h: nat)

  datatype Point = Point(x: real, y: real)

  /** `cv2.fitEllipse` axes, with `rootTerm` the value of
      `sqrt(axes[1] * axes[0] * pi)` computed alongside. */
  datatype Ellipse = Ellipse(axis0: real, axis1: real, rootTerm: real)

  datatype Contour = Contour(
    points: nat,      // len(cnt)
    area: real,       // cv2.contourArea
    box: Rect,        // cv2.boundingRect
    centre: Point,    // cv2.minEnclosingCircle centre
    radius: real,     // cv2.minEnclosingCircle radius
    ellipse: Ellipse) // cv2.fitEllipse

  function Areas(cs: seq<Contour>): (a: seq<real>)
    ensures |a| == |cs|
    ensures forall k | 0 <= k < |cs| :: a[k] == cs[k].area
  {
    seq(|cs|, k requires 0 <= k < |cs| => cs[k].area)
  }

  /** `np.argmax([cv2.contourArea(c) for c in cs])`: the first contour of
      largest area. */
  function Largest(cs: seq<Contour>): (k: nat)
    requires |cs| > 0
    ensures k < |cs|
    ensures forall j | 0 <= j < |cs| :: cs[j].area <= cs[k].area
    ensures forall j | 0 <= j < k :: cs[j].area < cs[k].area
  {
    FirstMax(Areas(cs))
  }

  /** `c` is what `cs[np.argmax(areas)]` returns: a contour of largest area
      with only strictly smaller areas before it. */
  predicate FirstLargest(cs: seq<Contour>, c: Contour) {
    exists k | 0 <= k < |cs| :: cs[k] == c
      && (forall j | 0 <= j < |cs| :: cs[j].area <= c.area)
      && (forall j | 0 <= j < k :: cs[j].area < c.area)
  }
}

=== FILE: ledger.dfy ===
/** The camera result ledger `camera.txt`: a header line, then one
    tab-separated row per image. A file is a sequence of lines, each keeping
    its terminating newline, so that the file's text is their concatenation.

    Storing a row for image `i` first asks whether `i` occurs anywhere in the
    file's text. If it does, every line containing `i` as a substring is
    replaced by the new row and all other lines are copied; if it does not,
    the row is appended (iso-cv-camera.py:219-227). */
module Ledger {
  import opened Text

  /** The header's column names (iso-cv-camera.py:118). */
  const Columns: seq<string> := ["Source_file", "Length", "Area", "Mean", "StdDev", "Scale"]

  /** The header line: the column names joined by tabs, then a newline. */
  const Header: string := Row(Columns)

  /** The ledger file before a run: absent, or present with its lines. */
  datatype File = Absent | Present(lines: seq<string>)

  /** The file's text: its lines one after another. */
  function Content(lines: seq<string>): string {
    if |lines| == 0 then [] else lines[0] + Content(lines[1..])
  }

  predicate WellFormed(lines: seq<string>) {
    forall k | 0 <= k < |lines| :: IsLine(lines[k])
  }

  /** The header is a six-field line with the six column names. */
  lemma HeaderColumns()
    ensures IsLine(Header)
    ensures Fields(Header) == Columns && |Columns| == 6
  {
    ColumnsAreFields();
    RowFields(Columns);
  }

  lemma ColumnsAreFields()
    ensures forall k | 0 <= k < |Columns| :: IsField(Columns[k]) && '.' !in Columns[k]
  {
  }

  /** The file at the start of a run: the header is written when, and only when,
      the file does not exist yet; an existing file is left as it is
      (iso-cv-camera.py:116-119). */
  function Open(f: File): (lines: seq<string>)
    ensures f.Absent? ==> lines == [Header]
    ensures f.Present? ==> lines == f.lines
    ensures WellFormed(lines) <==> (f.Absent? || WellFormed(f.lines))
  {
    HeaderColumns();
    match f
    case Absent => [Header]
    case Present(ls) => ls
  }

  /** The `fileinput` pass: each line containing `i` is replaced by `res`,
      each other line is printed back as it was. */
  function Rewrite(lines: seq<string>, i: string, res: string): (r: seq<string>)
    ensures |r| == |lines|
    ensures forall k | 0 <= k < |lines| ::
      r[k] == (if Contains(lines[k], i) then res else lines[k])
  {
    if |lines| == 0 then []
    else [if Contains(lines[0], i) then res else lines[0]] + Rewrite(lines[1..], i, res)
  }

  /** Store the row `res` for image `i`. */
  function Update(lines: seq<string>, i: string, res: string): (r: seq<string>)
    // replace branch: same number of lines, lines with `i` become `res`, the rest stay in place
    ensures Contains(Content(lines), i) ==>
      |r| == |lines| &&
      (forall k | 0 <= k < |lines| && Contains(lines[k], i) :: r[k] == res) &&
      (forall k | 0 <= k < |lines| && !Contains(lines[k], i) :: r[k] == lines[k])
    // append branch: the old file is kept whole and `res` is its new last line
    ensures !Contains(Content(lines), i) ==> |r| == |lines| + 1 && r[..|lines|] == lines && r[|lines|..] == [res]
  {
    if Contains(Content(lines), i) then Rewrite(lines, i, res) else lines + [res]
  }

  // ---------------------------------------------------------------------------
  // Facts about the file's text
  // ---------------------------------------------------------------------------

  lemma {:induction false} ContentAppend(a: seq<string>, b: seq<string>)
    ensures Content(a + b) == Content(a) + Content(b)
  {
    if |a| > 0 {
      assert (a + b)[0] == a[0];
      assert (a + b)[1..] == a[1..] + b;
      ContentAppend(a[1..], b);
    } else {
      assert a + b == b;
    }
  }

  /** Whatever occurs in one line occurs in the file. */
  lemma {:induction false} LineInContent(lines: seq<string>, k: nat, p: string)
    requires k < |lines| && Contains(lines[k], p)
    ensures Contains(Content(lines), p)
  {
    if k == 0 {
      ContainsBefore(lines[0], Content(lines[1..]), p);
    } else {
      LineInContent(lines[1..], k - 1, p);
      ContainsAfter(lines[0], Content(lines[1..]), p);
    }
  }

  /** A newline-free pattern that occurs in a file of whole lines occurs inside
      one of its lines: no occurrence can straddle a line break. */
  lemma {:induction false} ContentInLine(lines: seq<string>, p: string)
    requires WellFormed(lines)
    requires |p| > 0 && Newline !in p
    requires Contains(Content(lines), p)
    ensures exists k | 0 <= k < |lines| :: Contains(lines[k], p)
  {
    var head, tail := lines[0], Content(lines[1..]);
    var s := Content(lines);
    assert s == head + tail;
    var j :| 0 <= j <= |s| && p <= s[j..];
    // the occurrence cannot cover the newline that ends `head`
    StraddleSeesNewline(head, tail, p, j);
    if j + |p| <= |head| {
      assert head[j..][..|p|] == s[j..][..|p|];
      assert p <= head[j..];
      assert Contains(lines[0], p);
    } else {
      assert j >= |head|;
      assert s[j..] == tail[j - |head|..];
      assert Contains(tail, p);
      ContentInLine(lines[1..], p);
      var k :| 0 <= k < |lines[1..]| && Contains(lines[1..][k], p);
      assert Contains(lines[k + 1], p);
    }
  }

  /** An occurrence that starts inside `head` and ends past it covers the last
      character of `head`. */
  lemma StraddleSeesNewline(head: string, tail: string, p: string, j: int)
    requires |head| > 0 && head[|head| - 1] == Newline
    requires 0 <= j <= |head + tail| && p <= (head + tail)[j..]
    ensures j < |head| < j + |p| ==> Newline in p
  {
    if j < |head| < j + |p| {
      var n := |head| - 1 - j;
      assert (head + tail)[j..][n] == (head + tail)[j + n];
      assert p[n] == Newline;
    }
  }

  /** For well-formed files and names without a newline, the program's test on
      the whole text is the same as asking whether some line contains `i`. */
  lemma ContentContainsIffLine(lines: seq<string>, i: string)
    requires WellFormed(lines)
    requires |i| > 0 && Newline !in i
    ensures Contains(Content(lines), i) <==>
      exists k | 0 <= k < |lines| :: Contains(lines[k], i)
  {
    if Contains(Content(lines), i) {
      ContentInLine(lines, i);
    }
    if exists k | 0 <= k < |lines| :: Contains(lines[k], i) {
      var k :| 0 <= k < |lines| && Contains(lines[k], i);
      LineInContent(lines, k, i);
    }
  }

  // ---------------------------------------------------------------------------
  // Properties of Update
  // ---------------------------------------------------------------------------

  /** Appending keeps the old text as an unchanged prefix of the new text, with
      exactly `res` added at the end. */
  lemma AppendExtendsContent(lines: seq<string>, i: string, res: string)
    requires !Contains(Content(lines), i)
    ensures Content(Update(lines, i, res)) == Content(lines) + res
  {
    ContentAppend(lines, [res]);
    assert Content([res]) == res + Content([]);
  }

  /** Storing a row keeps a file made of whole lines made of whole lines. */
  lemma UpdateWellFormed(lines: seq<string>, i: string, res: string)
    requires WellFormed(lines) && IsLine(res)
    ensures WellFormed(Update(lines, i, res))
  {
  }

  /** Storing the same row twice gives the same file as storing it once, for
      any starting file, provided the row mentions `i` (rows start with it). */
  lemma UpdateIdempotent(lines: seq<string>, i: string, res: string)
    requires Contains(res, i)
    ensures Update(Update(lines, i, res), i, res) == Update(lines, i, res)
  {
    var once := Update(lines, i, res);
    if Contains(Content(lines), i) {
      if exists k | 0 <= k < |lines| :: Contains(lines[k], i) {
        var k :| 0 <= k < |lines| && Contains(lines[k], i);
        LineInContent(once, k, i);
      } else {
        assert once == lines;
      }
      assert Update(once, i, res) == once;
    } else {
      AppendExtendsContent(lines, i, res);
      ContainsAfter(Content(lines), res, i);
      forall k | 0 <= k < |lines| ensures !Contains(lines[k], i) {
        if Contains(lines[k], i) {
          LineInContent(lines, k, i);
        }
      }
      assert Update(once, i, res) == once;
    }
  }

  /** After storing, the file holds `res` and every line that mentions `i` is
      `res`. */
  lemma UpdateInstallsRow(lines: seq<string>, i: string, res: string)
    requires WellFormed(lines)
    requires |i| > 0 && Newline !in i
    requires Contains(res, i)
    ensures res in Update(lines, i, res)
    ensures forall l | l in Update(lines, i, res) && Contains(l, i) :: l == res
  {
    var r := Update(lines, i, res);
    if Contains(Content(lines), i) {
      ContentInLine(lines, i);
    } else {
      forall k | 0 <= k < |lines| ensures !Contains(lines[k], i) {
        if Contains(lines[k], i) {
          LineInContent(lines, k, i);
        }
      }
      assert r[|lines|] == res;
    }
  }

  /** The header has no '.', so a file name with an extension never matches it
      and the header stays the first line. */
  lemma HeaderSurvives(lines: seq<string>, i: string, res: string)
    requires |lines| > 0 && lines[0] == Header
    requires '.' in i
    ensures Update(lines, i, res)[0] == Header
  {
    HeaderLacksDottedName(i);
  }

  // ---------------------------------------------------------------------------
  // Rows
  // ---------------------------------------------------------------------------

  /** One measured image, with its rounded values in hundredths. */
  datatype CameraRecord = CameraRecord(
    lengthH: int,   // round(length, 2)
    areaH: int,     // round(area, 2)
    mean: int,      // int(mean)
    sdH: int,       // round(sd, 2)
    scale: nat)     // pixels per millimetre

  /** `res_string` (iso-cv-camera.py:217). */
  function CameraRow(i: string, m: CameraRecord): string {
    Row([i, Fixed2Text(m.lengthH), Fixed2Text(m.areaH), IntText(m.mean),
         Fixed2Text(m.sdH), NatText(m.scale)])
  }

  /** A row is one line whose fields are the image name and the texts of its
      values, in the header's order. */
  lemma CameraRowLine(i: string, m: CameraRecord)
    requires IsField(i)
    ensures IsLine(CameraRow(i, m))
    ensures Fields(CameraRow(i, m)) ==
      [i, Fixed2Text(m.lengthH), Fixed2Text(m.areaH), IntText(m.mean), Fixed2Text(m.sdH), NatText(m.scale)]
    ensures StartsWith(CameraRow(i, m), i)
  {
    var f1, f2, f3 := Fixed2Text(m.lengthH), Fixed2Text(m.areaH), IntText(m.mean);
    var f4, f5 := Fixed2Text(m.sdH), NatText(m.scale);
    IntTextIsField(m.mean);
    NatTextIsField(m.scale);
    assert IsField(f1) && IsField(f2) && IsField(f4);
    var fs := [i, f1, f2, f3, f4, f5];
    RowFields(fs);
    assert JoinTab(fs) == i + [Tab] + JoinTab(fs[1..]);
  }

  /** A row is one line with as many fields as the header, starting with the
      image name, and its numbers read back as stored. */
  lemma CameraRowFields(i: string, m: CameraRecord)
    requires IsField(i)
    ensures IsLine(CameraRow(i, m))
    ensures |Fields(CameraRow(i, m))| == |Fields(Header)| == 6
    ensures Fields(CameraRow(i, m))[0] == i
    ensures ParseFixed2(Fields(CameraRow(i, m))[1]) == m.lengthH
    ensures ParseFixed2(Fields(CameraRow(i, m))[2]) == m.areaH
    ensures ParseInt(Fields(CameraRow(i, m))[3]) == m.mean
    ensures ParseFixed2(Fields(CameraRow(i, m))[4]) == m.sdH
    ensures ParseNat(Fields(CameraRow(i, m))[5]) == m.scale
    ensures StartsWith(CameraRow(i, m), i)
  {
    CameraRowLine(i, m);
    HeaderColumns();
    Fixed2RoundTrip(m.lengthH);
    Fixed2RoundTrip(m.areaH);
    Fixed2RoundTrip(m.sdH);
    IntTextRoundTrip(m.mean);
    ParseNatText(m.scale);
  }

  /** The stored row always matches its own image name, so the storing step is
      idempotent for every row the program writes. */
  lemma CameraRowIdempotent(lines: seq<string>, i: string, m: CameraRecord)
    requires IsField(i)
    ensures Update(Update(lines, i, CameraRow(i, m)), i, CameraRow(i, m))
         == Update(lines, i, CameraRow(i, m))
  {
    CameraRowFields(i, m);
    ContainsPrefix(CameraRow(i, m), i);
    UpdateIdempotent(lines, i, CameraRow(i, m));
  }

  // ---------------------------------------------------------------------------
  // Matching by substring versus matching by name
  // ---------------------------------------------------------------------------

  /** The image name a row is stored under: its first field. */
  function Key(line: string): string {
    Fields(line)[0]
  }

  /** Every line is stored under its own name: no two lines share a first field. */
  predicate UniqueKeys(lines: seq<string>) {
    forall a, b | 0 <= a < b < |lines| :: Key(lines[a]) != Key(lines[b])
  }

  /** The store with rows matched on their first field instead of by substring:
      a row is replaced only when it is stored under the name `i`. */
  function UpdateKeyed(lines: seq<string>, i: string, res: string): (r: seq<string>)
    ensures (exists k | 0 <= k < |lines| :: Key(lines[k]) == i) ==>
      |r| == |lines| &&
      forall k | 0 <= k < |lines| :: r[k] == (if Key(lines[k]) == i then res else lines[k])
    ensures (forall k | 0 <= k < |lines| :: Key(lines[k]) != i) ==> r == lines + [res]
  {
    if exists k | 0 <= k < |lines| :: Key(lines[k]) == i then
      seq(|lines|, k requires 0 <= k < |lines| => if Key(lines[k]) == i then res else lines[k])
    else lines + [res]
  }

  /** Where the substring test and the name test pick the same rows, the
      program's store and the keyed store write the same file. */
  lemma UpdatesAgree(lines: seq<string>, i: string, res: string)
    requires WellFormed(lines)
    requires |i| > 0 && Newline !in i
    requires forall k | 0 <= k < |lines| :: Contains(lines[k], i) <==> Key(lines[k]) == i
    ensures Update(lines, i, res) == UpdateKeyed(lines, i, res)
  {
    ContentContainsIffLine(lines, i);
  }

  /** Matching on the name keeps the new row and every row stored under another
      name. */
  lemma UpdateKeyedKeeps(lines: seq<string>, i: string, res: string)
    ensures res in UpdateKeyed(lines, i, res)
    ensures forall k | 0 <= k < |lines| && Key(lines[k]) != i :: lines[k] in UpdateKeyed(lines, i, res)
  {
    var r := UpdateKeyed(lines, i, res);
    if exists k | 0 <= k < |lines| :: Key(lines[k]) == i {
      var k0 :| 0 <= k0 < |lines| && Key(lines[k0]) == i;
      assert r[k0] == res;
      forall k | 0 <= k < |lines| && Key(lines[k]) != i ensures lines[k] in r {
        assert r[k] == lines[k];
      }
    } else {
      assert r[|lines|] == res;
      forall k | 0 <= k < |lines| ensures lines[k] in r {
        assert r[k] == lines[k];
      }
    }
  }

  /** A new row stored under its own name keeps the names unique. */
  lemma UpdateKeyedUnique(lines: seq<string>, i: string, res: string)
    requires Key(res) == i
    requires UniqueKeys(lines)
    ensures UniqueKeys(UpdateKeyed(lines, i, res))
  {
    var r := UpdateKeyed(lines, i, res);
    if exists k | 0 <= k < |lines| :: Key(lines[k]) == i {
      forall a, b | 0 <= a < b < |r| ensures Key(r[a]) != Key(r[b]) {
        assert Key(r[a]) == i <==> Key(lines[a]) == i;
        assert Key(r[b]) == i <==> Key(lines[b]) == i;
      }
    } else {
      forall a, b | 0 <= a < b < |r| ensures Key(r[a]) != Key(r[b]) {
        if b < |lines| {
          assert r[a] == lines[a] && r[b] == lines[b];
        } else {
          assert r[a] == lines[a] && r[b] == res;
        }
      }
    }
  }

  /** Matching on the name keeps every entry one line, and keeps the first line
      when it is stored under another name. */
  lemma UpdateKeyedFrame(lines: seq<string>, i: string, res: string)
    requires WellFormed(lines) && IsLine(res)
    requires |lines| > 0 && Key(lines[0]) != i
    ensures WellFormed(UpdateKeyed(lines, i, res))
    ensures UpdateKeyed(lines, i, res)[0] == lines[0]
  {
    var r := UpdateKeyed(lines, i, res);
    forall k | 0 <= k < |r| ensures IsLine(r[k]) {
      if k < |lines| {
        assert r[k] == lines[k] || r[k] == res;
      } else {
        assert r[k] == res;
      }
    }
  }

  /** Matching on the name keeps every row stored under another name, and keeps
      at most one row per name: the new row is the only one stored under `i`. */
  lemma UpdateKeyedKeepsOthers(lines: seq<string>, i: string, res: string)
    requires Key(res) == i
    requires UniqueKeys(lines)
    ensures forall k | 0 <= k < |lines| && Key(lines[k]) != i :: lines[k] in UpdateKeyed(lines, i, res)
    ensures res in UpdateKeyed(lines, i, res)
    ensures UniqueKeys(UpdateKeyed(lines, i, res))
  {
    UpdateKeyedKeeps(lines, i, res);
    UpdateKeyedUnique(lines, i, res);
  }

  /** A name with an extension never occurs in the header, which has no '.'. */
  lemma HeaderLacksDottedName(i: string)
    requires '.' in i
    ensures !Contains(Header, i)
  {
    if Contains(Header, i) {
      ContainsChars(Header, i, '.');
      ColumnsAreFields();
      JoinTabChars(Columns, '.');
      assert false;
    }
  }

  /** A row stored under another name that contains `i` is overwritten. */
  lemma ForeignRowOverwritten(lines: seq<string>, k: nat, i: string, res: string)
    requires k < |lines| && Contains(lines[k], i) && Key(lines[k]) != i
    ensures Update(lines, i, res)[k] == res
  {
    LineInContent(lines, k, i);
  }

  /** The row stored for `ab.jpg` in the example below. */
  function RowAb(): string { Row(["ab.jpg", "1.5", "0.5", "120", "3.2", "70"]) }

  /** The row stored for `b.jpg` in the example below. */
  function RowB(): string { Row(["b.jpg", "2.0", "0.8", "118", "2.9", "70"]) }

  lemma ExampleRows()
    ensures Key(RowAb()) == "ab.jpg" && Key(RowB()) == "b.jpg"
    ensures Contains(RowAb(), "b.jpg")
  {
    ExampleKeyAb();
    ExampleKeyB();
    ExampleContains();
  }

  lemma ExampleKeyAb()
    ensures Key(RowAb()) == "ab.jpg"
  {
    RowFields(["ab.jpg", "1.5", "0.5", "120", "3.2", "70"]);
  }

  lemma ExampleKeyB()
    ensures Key(RowB()) == "b.jpg"
  {
    RowFields(["b.jpg", "2.0", "0.8", "118", "2.9", "70"]);
  }

  lemma ExampleContains()
    ensures Contains(RowAb(), "b.jpg")
  {
    var fo := ["ab.jpg", "1.5", "0.5", "120", "3.2", "70"];
    assert RowAb() == "ab.jpg" + ([Tab] + JoinTab(fo[1..]) + [Newline]);
    assert "b.jpg" <= RowAb()[1..];
  }

  /** A two-line ledger whose second row contains `i` inside another name. */
  lemma TwoLineOverwrite(h: string, other: string, i: string, res: string)
    requires !Contains(h, i) && Contains(other, i)
    requires Key(h) != i && Key(other) != i
    ensures Key(h) != Key(other) ==> UniqueKeys([h, other])
    ensures Update([h, other], i, res) == [h, res]
    ensures UpdateKeyed([h, other], i, res) == [h, other, res]
  {
    var lines := [h, other];
    LineInContent(lines, 1, i);
    assert forall k | 0 <= k < |lines| :: Key(lines[k]) != i;
  }

  /** The program's substring match loses a row: storing `b.jpg` into a ledger
      that holds a row for `ab.jpg` overwrites that row, because "b.jpg" occurs
      inside "ab.jpg". Matching on the name appends instead. */
  lemma SubstringMatchLosesRow()
    ensures UniqueKeys([Header, RowAb()])
    ensures Update([Header, RowAb()], "b.jpg", RowB()) == [Header, RowB()]
    ensures UpdateKeyed([Header, RowAb()], "b.jpg", RowB()) == [Header, RowAb(), RowB()]
  {
    ExampleRows();
    HeaderColumns();
    assert Key(Header) == Columns[0] == "Source_file";
    HeaderLacksDottedName("b.jpg");
    TwoLineOverwrite(Header, RowAb(), "b.jpg", RowB());
  }

  /** A three-line ledger whose two rows both contain `i`: both become `res`. */
  lemma ThreeLineOverwrite(h: string, l1: string, l2: string, i: string, res: string)
    requires !Contains(h, i) && Contains(l1, i) && Contains(l2, i)
    ensures Update([h, l1, l2], i, res) == [h, res, res]
  {
    LineInContent([h, l1, l2], 1, i);
  }

  /** Two rows that mention neither later name in an earlier line are each
      appended. */
  lemma AppendTwo(h: string, l1: string, l2: string, i1: string, i2: string)
    requires IsLine(h) && IsLine(l1)
    requires |i2| > 0 && Newline !in i2
    requires !Contains(h, i1) && !Contains(h, i2) && !Contains(l1, i2)
    ensures Update([h], i1, l1) == [h, l1]
    ensures Update([h, l1], i2, l2) == [h, l1, l2]
  {
    assert Content([h]) == h;
    var two := [h, l1];
    assert WellFormed(two);
    ContentContainsIffLine(two, i2);
  }

  /** When `i` occurs in the header-free rows `l1` (its own) and `l2` (another
      name's), the substring store writes `l1` twice, while the keyed store
      leaves the ledger as it is. */
  lemma DuplicateRow(h: string, l1: string, l2: string, i: string)
    requires !Contains(h, i) && Contains(l1, i) && Contains(l2, i)
    requires Key(h) != i && Key(l1) == i && Key(l2) != i && Key(h) != Key(l2)
    ensures UniqueKeys([h, l1, l2])
    ensures Update([h, l1, l2], i, l1) == [h, l1, l1]
    ensures !UniqueKeys([h, l1, l1])
    ensures UpdateKeyed([h, l1, l2], i, l1) == [h, l1, l2]
  {
    ThreeLineOverwrite(h, l1, l2, i, l1);
    ThreeKeys(h, l1, l2);
    KeyedKeepsOwn(h, l1, l2, i);
    var dup := [h, l1, l1];
    assert Key(dup[1]) == Key(dup[2]);
  }

  lemma ThreeKeys(h: string, l1: string, l2: string)
    requires Key(h) != Key(l1) && Key(h) != Key(l2) && Key(l1) != Key(l2)
    ensures UniqueKeys([h, l1, l2])
  {
  }

  lemma KeyedKeepsOwn(h: string, l1: string, l2: string, i: string)
    requires Key(h) != i && Key(l1) == i && Key(l2) != i
    ensures UpdateKeyed([h, l1, l2], i, l1) == [h, l1, l2]
  {
    var three := [h, l1, l2];
    assert Key(three[1]) == i;
  }

  /** `b.jpg` first, then `ab.jpg`, stored into a new ledger, each appended as a
      new row under its own name. */
  lemma ExampleLedgerBuilt()
    ensures Update([Header], "b.jpg", RowB()) == [Header, RowB()]
    ensures Update([Header, RowB()], "ab.jpg", RowAb()) == [Header, RowB(), RowAb()]
  {
    HeaderLacksDottedName("b.jpg");
    HeaderLacksDottedName("ab.jpg");
    RowBLacksAb();
    HeaderColumns();
    RowBLine();
    AppendTwo(Header, RowB(), RowAb(), "b.jpg", "ab.jpg");
  }

  lemma RowBLine()
    ensures IsLine(RowB()) && StartsWith(RowB(), "b.jpg")
  {
    RowBIsLine();
    RowBStarts();
  }

  lemma RowBIsLine()
    ensures IsLine(RowB())
  {
    RowFields(["b.jpg", "2.0", "0.8", "118", "2.9", "70"]);
  }

  lemma RowBStarts()
    ensures StartsWith(RowB(), "b.jpg")
  {
    var fo := ["b.jpg", "2.0", "0.8", "118", "2.9", "70"];
    assert RowB() == "b.jpg" + ([Tab] + JoinTab(fo[1..]) + [Newline]);
  }

  /** The row for `b.jpg` has no 'a', so "ab.jpg" does not occur in it. */
  lemma RowBLacksAb()
    ensures !Contains(RowB(), "ab.jpg")
  {
    var fo := ["b.jpg", "2.0", "0.8", "118", "2.9", "70"];
    JoinTabChars(fo, 'a');
    assert RowB() == JoinTab(fo) + [Newline];
    if Contains(RowB(), "ab.jpg") {
      ContainsChars(RowB(), "ab.jpg", 'a');
      assert false;
    }
  }

  /** The program's substring match duplicates a row: in a ledger built by
      storing `b.jpg` and then `ab.jpg` (names unique), storing `b.jpg` again
      overwrites the `ab.jpg` row too, so the file ends with two rows for
      `b.jpg` and none for `ab.jpg`. Matching on the name keeps the ledger. */
  lemma SubstringMatchDuplicatesRow()
    ensures UniqueKeys([Header, RowB(), RowAb()])
    ensures Update([Header, RowB(), RowAb()], "b.jpg", RowB()) == [Header, RowB(), RowB()]
    ensures !UniqueKeys([Header, RowB(), RowB()])
    ensures UpdateKeyed([Header, RowB(), RowAb()], "b.jpg", RowB()) == [Header, RowB(), RowAb()]
  {
    ExampleRows();
    HeaderColumns();
    assert Key(Header) == Columns[0] == "Source_file";
    HeaderLacksDottedName("b.jpg");
    RowBLine();
    ContainsPrefix(RowB(), "b.jpg");
    DuplicateRow(Header, RowB(), RowAb(), "b.jpg");
  }
}

=== FILE: naming.dfy ===
/** File names and the per-image decisions built on them: which raw camera
    images are converted to gray images and under what name
    (iso-cv-camera.py:56-65), which gray images are measured and from which
    copy (iso-cv-camera.py:130-139), and the scanner's output names
    (scripts/iso-cv-scanner.py:68, 182). Directories are modelled as the sets of
    names they contain. */
module Naming {
  import opened Text
  import opened PySlice

  // ---------------------------------------------------------------------------
  // os.path.splitext
  // ---------------------------------------------------------------------------

  /** Position of the last occurrence of `c` in `s`. */
  function LastIndexOf(s: string, c: char): (k: nat)
    requires c in s
    ensures k < |s| && s[k] == c && c !in s[k + 1..]
  {
    if s[|s| - 1] == c then |s| - 1
    else
      assert c in s[..|s| - 1] by {
        var j :| 0 <= j < |s| && s[j] == c;
        assert s[..|s| - 1][j] == c;
      }
      var k := LastIndexOf(s[..|s| - 1], c);
      assert s[k + 1..] == s[..|s| - 1][k + 1..] + [s[|s| - 1]];
      k
  }

  predicate AllDots(s: string) {
    forall k | 0 <= k < |s| :: s[k] == '.'
  }

  /** `os.path.splitext(p)` for a name without directory separators: split at
      the last '.', unless everything before that '.' is dots (a name such as
      ".jpg" has no extension). */
  function SplitExt(p: string): (r: (string, string))
    ensures r.0 + r.1 == p
    ensures r.1 == [] || (r.1[0] == '.' && '.' !in r.1[1..])
    ensures r.1 != [] ==> !AllDots(r.0)
    // the split is at the last '.', exactly when a non-dot precedes it
    ensures '.' in p && !AllDots(p[..LastIndexOf(p, '.')]) ==>
      r == (p[..LastIndexOf(p, '.')], p[LastIndexOf(p, '.')..])
    ensures '.' !in p || AllDots(p[..LastIndexOf(p, '.')]) ==> r == (p, [])
  {
    if '.' !in p then (p, [])
    else
      var d := LastIndexOf(p, '.');
      if AllDots(p[..d]) then (p, [])
      else
        assert p[..d] + p[d..] == p;
        assert p[d..][1..] == p[d + 1..];
        (p[..d], p[d..])
  }

  /** Only names ending in ".jpg" or ".JPG" are converted (iso-cv-camera.py:56). */
  predicate IsJpg(i: string) {
    EndsWith(i, ".jpg") || EndsWith(i, ".JPG")
  }

  /** The label of a JPEG name is the name without its last four characters,
      unless all that precedes ".jpg" is dots. */
  lemma JpgLabel(i: string)
    requires IsJpg(i)
    ensures !AllDots(i[..|i| - 4]) ==> SplitExt(i).0 == i[..|i| - 4]
    ensures AllDots(i[..|i| - 4]) ==> SplitExt(i).0 == i
  {
    var n := |i|;
    assert i[n - 4] == '.';
    assert '.' !in i[n - 3..] by {
      assert i[n - 3..] == i[n - 4..][1..];
    }
    var d := LastIndexOf(i, '.');
    assert d == n - 4;
  }

  // ---------------------------------------------------------------------------
  // Gray-image conversion (iso-cv-camera.py:56-65)
  // ---------------------------------------------------------------------------

  /** `date[0:4] + date[5:7] + date[8:10]`: from an EXIF date such as
      "2023:05:09 10:11:12", the eight digits "20230509". */
  function DateDigits(date: string): (d: string)
    ensures |date| >= 10 ==> d == date[0..4] + date[5..7] + date[8..10] && |d| == 8
    ensures |d| <= 8
  {
    Slice(date, 0, 4) + Slice(date, 5, 7) + Slice(date, 8, 10)
  }

  /** `new_img_name`: label, '_', the date digits, "_gray.jpg". */
  function GrayName(i: string, date: string): (name: string)
    ensures StartsWith(name, SplitExt(i).0 + "_")
    ensures EndsWith(name, "_gray.jpg")
    ensures |name| == |SplitExt(i).0| + |DateDigits(date)| + 10
    ensures name[|SplitExt(i).0| + 1..|name| - 9] == DateDigits(date)
  {
    var base := SplitExt(i).0;
    var name := base + "_" + DateDigits(date) + "_gray" + ".jpg";
    assert name == (base + "_") + (DateDigits(date) + "_gray.jpg");
    assert name[|name| - 9..] == "_gray.jpg";
    assert name[|base| + 1..|name| - 9] == DateDigits(date);
    name
  }

  /** With full EXIF dates the gray name determines the label and the date
      digits: two images share a gray name only if they share both. */
  lemma GrayNameDeterminesLabelAndDate(i1: string, d1: string, i2: string, d2: string)
    requires |d1| >= 10 && |d2| >= 10
    requires GrayName(i1, d1) == GrayName(i2, d2)
    ensures SplitExt(i1).0 == SplitExt(i2).0
    ensures DateDigits(d1) == DateDigits(d2)
  {
    var l1, l2 := SplitExt(i1).0, SplitExt(i2).0;
    var n1, n2 := GrayName(i1, d1), GrayName(i2, d2);
    assert |l1| == |l2|;
    assert n1 == l1 + "_" + DateDigits(d1) + "_gray.jpg";
    assert n2 == l2 + "_" + DateDigits(d2) + "_gray.jpg";
    assert l1 == n1[..|l1|] == n2[..|l2|] == l2;
    assert DateDigits(d1) == n1[|l1| + 1..|l1| + 9] == n2[|l2| + 1..|l2| + 9] == DateDigits(d2);
  }

  /** A raw image and its upper-case twin map to the same gray name, so only
      the first of them seen is converted. */
  lemma CaseTwinsShareGrayName(stem: string, date: string)
    requires !AllDots(stem)
    ensures GrayName(stem + ".jpg", date) == GrayName(stem + ".JPG", date)
  {
    var lo, up := stem + ".jpg", stem + ".JPG";
    assert lo[..|lo| - 4] == stem == up[..|up| - 4];
    JpgLabel(lo);
    JpgLabel(up);
    SameLabelSameGrayName(lo, up, date);
  }

  /** The gray name depends on the raw name only through its label. */
  lemma SameLabelSameGrayName(a: string, b: string, date: string)
    requires SplitExt(a).0 == SplitExt(b).0
    ensures GrayName(a, date) == GrayName(b, date)
  {
  }

  /** What the conversion loop does with one raw file. */
  datatype GrayAction =
    | NotJpg                  // other extensions are ignored
    | AlreadyGray(name: string) // a gray image of that name exists: nothing is overwritten
    | Convert(name: string)   // read, normalise, write under `name`

  function GrayStep(i: string, date: string, grayDir: set<string>): (a: GrayAction)
    ensures a.NotJpg? <==> !IsJpg(i)
    ensures !a.NotJpg? ==> a.name == GrayName(i, date)
    ensures a.Convert? <==> IsJpg(i) && GrayName(i, date) !in grayDir
  {
    if !IsJpg(i) then NotJpg
    else if GrayName(i, date) in grayDir then AlreadyGray(GrayName(i, date))
    else Convert(GrayName(i, date))
  }

  /** Converting is idempotent: once the gray image is written, the same raw
      file is skipped on every later run. */
  lemma GrayStepOnce(i: string, date: string, grayDir: set<string>)
    requires GrayStep(i, date, grayDir).Convert?
    ensures GrayStep(i, date, grayDir + {GrayStep(i, date, grayDir).name}).AlreadyGray?
  {
  }

  // ---------------------------------------------------------------------------
  // Measurement decision (iso-cv-camera.py:130-139)
  // ---------------------------------------------------------------------------

  /** Which copy of a gray image, if any, is measured. */
  datatype Plan =
    | Finished  // a control image sits in out/good or out/redone
    | FromRedo  // a hand-cropped copy sits in gray/redo: it is the ROI, detection is skipped
    | Detect    // the gray image itself, with ROI detection (`first == True`)

  function PlanFor(i: string, good: set<string>, redone: set<string>, redo: set<string>): (p: Plan)
    ensures p.Finished? <==> i in good || i in redone
    ensures p.FromRedo? <==> i !in good && i !in redone && i in redo
    ensures p.Detect? <==> i !in good && i !in redone && i !in redo
  {
    if i in good || i in redone then Finished
    else if i in redo then FromRedo
    else Detect
  }

  // ---------------------------------------------------------------------------
  // Scanner output names (scripts/iso-cv-scanner.py:68, 182)
  // ---------------------------------------------------------------------------

  /** `i[0:len(i)-4]`. */
  function Stem(i: string): (s: string)
    ensures |i| >= 4 ==> s + i[|i| - 4..] == i && |s| == |i| - 4
  {
    Slice(i, 0, |i| - 4)
  }

  /** The per-image results file. */
  function TextName(i: string): string { Stem(i) + ".txt" }

  /** The control image. */
  function OutputName(i: string): string { Stem(i) + "_output.jpg" }

  /** For names of four characters or more, both outputs replace exactly the
      last four characters (the extension) of the source name. */
  lemma OutputNamesReplaceExtension(i: string)
    requires |i| >= 4
    ensures TextName(i) == i[..|i| - 4] + ".txt"
    ensures OutputName(i) == i[..|i| - 4] + "_output.jpg"
  {
  }

  /** For shorter names the negative stop counts from the end, so the stem is
      not empty in general: "abc" gives "ab", while "ab" gives "". */
  lemma ShortNameStems()
    ensures Stem("abc") == "ab"
    ensures Stem("ab") == ""
  {
  }
}

=== FILE: numeric.dfy ===
/** Python's integer conversions, on exact reals: `int(x)` truncates toward
    zero, `round(x)` rounds half to even. Floating-point representation error
    is not modelled: a float is taken to be the real it approximates. */
module Numeric {

  /** `int(x)` for a float `x`. */
  function Trunc(x: real): (r: int)
    ensures 0.0 <= x ==> 0 <= r && r as real <= x < r as real + 1.0
    ensures x < 0.0 ==> r <= 0 && r as real - 1.0 < x <= r as real
  {
    if x >= 0.0 then x.Floor else -((-x).Floor)
  }

  /** `round(x)` (one argument): the nearest integer, ties to the even one. */
  function RoundHalfEven(x: real): (r: int)
    ensures -0.5 <= r as real - x <= 0.5
    ensures (r as real - x == 0.5 || x - r as real == 0.5) ==> r % 2 == 0
  {
    var f := x.Floor;
    var d := x - f as real;
    if d < 0.5 then f
    else if d > 0.5 then f + 1
    else if f % 2 == 0 then f else f + 1
  }

  /** `round(x, 2)`, returned as a count of hundredths. */
  function Round2(x: real): (h: int)
    ensures -0.005 <= h as real / 100.0 - x <= 0.005
  {
    RoundHalfEven(x * 100.0)
  }

  /** Rounding is monotone: it never reverses the order of two values. */
  lemma RoundMonotone(x: real, y: real)
    requires x <= y
    ensures RoundHalfEven(x) <= RoundHalfEven(y)
  {
  }

  /** Rounding leaves integers where they are. */
  lemma RoundOfInteger(n: int)
    ensures RoundHalfEven(n as real) == n
  {
  }
}

=== FILE: pyslice.dfy ===
/** Python slicing with step 1 (`s[start:stop]`), as used for image crops and
    for file-name stems. Both ends are resolved against the length: a negative
    end counts from the back, and each end is then clipped into `0..n`. */
module PySlice {

  /** A half-open index range `[lo, hi)`. */
  datatype Span = Span(lo: nat, hi: nat) {
    predicate Valid(n: nat) { lo <= hi <= n }
    function Size(): int { hi - lo }
    predicate Has(k: int) { lo <= k < hi }
  }

  /** One end of a slice resolved against length `n`. */
  function Resolve(n: nat, i: int): (r: nat)
    ensures r <= n
    ensures 0 <= i ==> r == if i <= n then i else n
    ensures i < 0 ==> r == if -i <= n then n + i else 0
  {
    if i < 0 then (if i + n < 0 then 0 else i + n)
    else if i > n then n else i
  }

  /** The indices that `s[start:stop]` selects from a sequence of length `n`;
      an empty selection is reported as the empty span at `lo`. */
  function Bounds(n: nat, start: int, stop: int): (sp: Span)
    ensures sp.Valid(n)
    ensures forall k :: sp.Has(k) <==>
      (0 <= k < n && Resolve(n, start) <= k < Resolve(n, stop))
  {
    var lo := Resolve(n, start);
    var hi := Resolve(n, stop);
    Span(lo, if hi < lo then lo else hi)
  }

  /** `s[start:stop]`. */
  function Slice<T>(s: seq<T>, start: int, stop: int): (r: seq<T>)
    ensures |r| <= |s|
    ensures 0 <= start <= stop <= |s| ==> r == s[start..stop]
  {
    var sp := Bounds(|s|, start, stop);
    s[sp.lo..sp.hi]
  }

  /** With non-negative ends the slice is `[min(start, n), max(lo, min(stop, n)))`:
      the form every crop in the programs takes. */
  lemma NonNegativeBounds(n: nat, start: int, stop: int)
    requires 0 <= start && 0 <= stop
    ensures Bounds(n, start, stop).lo == Min(start, n)
    ensures start <= n ==> Bounds(n, start, stop).hi == Max(start, Min(stop, n))
  {
  }

  function Min(a: int, b: int): int { if a <= b then a else b }
  function Max(a: int, b: int): int { if a <= b then b else a }
}

=== FILE: roi.dfy ===
/** Regions of interest. A window is a pair of Python slices, one for rows
    and one for columns, so a window reaching past an edge of the image is cut
    back at that edge. The camera program cuts a square around the centre of
    the largest detected contour (iso-cv-camera.py:162-179); the scanner cuts
    each accepted contour's bounding box widened by a margin, and later writes
    the annotated crop back into the same place
    (scripts/iso-cv-scanner.py:111, 152-153, 177). */
module Roi {
  import opened PySlice
  import opened Numeric
  import opened Contours

  /** Half side of the camera ROI, `roi_area` (iso-cv-camera.py:94). */
  const HalfSide: nat := 400
  /** Margin around a scanner bounding box (scripts/iso-cv-scanner.py:111). */
  const Margin: nat := 100

  /** `img[rows, cols]`. */
  datatype Window = Window(rows: Span, cols: Span)

  /** The whole image. */
  function Whole(height: nat, width: nat): Window {
    Window(Span(0, height), Span(0, width))
  }

  // ---------------------------------------------------------------------------
  // Camera: square around a centre (iso-cv-camera.py:173-179)
  // ---------------------------------------------------------------------------

  /** `img[max(0,y-q):y+q, max(0,x-q):x+q]` on an image of `height` rows and
      `width` columns. */
  function CentredWindow(height: nat, width: nat, x: int, y: int, q: nat): (w: Window)
    ensures w.rows.Valid(height) && w.cols.Valid(width)
    // for a centre inside the image: the square cut at the image's edges
    ensures 0 <= y < height ==> w.rows == Span(Max(0, y - q), Min(height, y + q))
    ensures 0 <= x < width ==> w.cols == Span(Max(0, x - q), Min(width, x + q))
    // at most 2q on each side, and the centre is inside
    ensures 0 <= y ==> w.rows.Size() <= 2 * q
    ensures 0 <= x ==> w.cols.Size() <= 2 * q
    ensures 0 <= y < height && q > 0 ==> w.rows.Has(y)
    ensures 0 <= x < width && q > 0 ==> w.cols.Has(x)
  {
    Window(Bounds(height, Max(0, y - q), y + q), Bounds(width, Max(0, x - q), x + q))
  }

  /** The contour the camera ROI is built around: the largest of the cleaned
      detection, or, when cleaning left nothing, the largest of the uncleaned
      one (iso-cv-camera.py:162-171). */
  function Detected(contours1: seq<Contour>, contours: seq<Contour>): (c: Contour)
    requires |contours1| > 0 || |contours| > 0
    ensures |contours1| > 0 ==> FirstLargest(contours1, c)
    ensures |contours1| == 0 ==> FirstLargest(contours, c)
  {
    if |contours1| > 0 then contours1[Largest(contours1)] else contours[Largest(contours)]
  }

  /** The camera ROI: the whole image when a hand-cropped redo copy is used
      (`first == False`), otherwise the square of half side 400 around the
      integer part of the enclosing circle's centre of the detected contour. */
  function CameraRoi(fromRedo: bool, height: nat, width: nat,
                     contours1: seq<Contour>, contours: seq<Contour>): (w: Window)
    requires fromRedo || |contours1| > 0 || |contours| > 0
    ensures w.rows.Valid(height) && w.cols.Valid(width)
    ensures fromRedo ==> w == Whole(height, width)
    ensures !fromRedo ==>
      var c := Detected(contours1, contours);
      && (0.0 <= c.centre.y ==> w.rows.Size() <= 2 * HalfSide)
      && (0.0 <= c.centre.x ==> w.cols.Size() <= 2 * HalfSide)
      && (0.0 <= c.centre.y < height as real ==> w.rows.Has(Trunc(c.centre.y)))
      && (0.0 <= c.centre.x < width as real ==> w.cols.Has(Trunc(c.centre.x)))
  {
    if fromRedo then Whole(height, width)
    else
      var c := Detected(contours1, contours);
      CentredWindow(height, width, Trunc(c.centre.x), Trunc(c.centre.y), HalfSide)
  }

  // ---------------------------------------------------------------------------
  // Scanner: bounding box plus margin (scripts/iso-cv-scanner.py:111, 152-153)
  // ---------------------------------------------------------------------------

  /** The bounding box lies inside an image of `height` rows and `width` columns. */
  predicate BoxInImage(b: Rect, height: nat, width: nat) {
    0 <= b.x && b.x + b.w <= width && 0 <= b.y && b.y + b.h <= height
  }

  /** `gray[max(0,ry-100):ry+h+100, max(0,rx-100):rx+w+100]`. */
  function BoxWindow(height: nat, width: nat, b: Rect): (w: Window)
    ensures w.rows.Valid(height) && w.cols.Valid(width)
    ensures BoxInImage(b, height, width) ==>
      && w.rows == Span(Max(0, b.y - Margin), Min(height, b.y + b.h + Margin))
      && w.cols == Span(Max(0, b.x - Margin), Min(width, b.x + b.w + Margin))
      // the whole box is inside the crop
      && (forall r | b.y <= r < b.y + b.h :: w.rows.Has(r))
      && (forall c | b.x <= c < b.x + b.w :: w.cols.Has(c))
  {
    Window(Bounds(height, Max(0, b.y - Margin), b.y + b.h + Margin),
           Bounds(width, Max(0, b.x - Margin), b.x + b.w + Margin))
  }

  /** The crop origin the program adds to centroids: `(max(0,rx-100), max(0,ry-100))`. */
  function Origin(b: Rect): (nat, nat) {
    (Max(0, b.x - Margin), Max(0, b.y - Margin))
  }

  /** `a = int(cx + max(0,rx-100))`, `b = int(cy + max(0,ry-100))`: a centroid
      inside the crop moved back to image coordinates. The shift is exactly the
      crop's top-left corner, so the integer part of the centroid moves by it. */
  function ImageCentroid(b: Rect, local: Point): (p: (int, int))
    ensures 0.0 <= local.x ==> p.0 == Trunc(local.x) + Origin(b).0
    ensures 0.0 <= local.y ==> p.1 == Trunc(local.y) + Origin(b).1
  {
    var (ox, oy) := Origin(b);
    (Trunc(local.x + ox as real), Trunc(local.y + oy as real))
  }

  /** For a box inside the image, the origin added to centroids is the crop's
      top-left corner, so a point of the crop lands on the image point it was
      cut from. */
  lemma OriginIsWindowCorner(height: nat, width: nat, b: Rect)
    requires BoxInImage(b, height, width)
    ensures Origin(b) == (BoxWindow(height, width, b).cols.lo, BoxWindow(height, width, b).rows.lo)
  {
  }

  // ---------------------------------------------------------------------------
  // Crop and write-back on pixel grids (scripts/iso-cv-scanner.py:111, 177)
  // ---------------------------------------------------------------------------

  /** The window lies inside the grid `g` (rows may differ in length). */
  predicate Fits<T>(g: seq<seq<T>>, w: Window) {
    w.rows.lo <= w.rows.hi <= |g| && w.cols.lo <= w.cols.hi &&
    forall r | w.rows.lo <= r < w.rows.hi :: w.cols.hi <= |g[r]|
  }

  /** `img[rows, cols]` read as a new grid. */
  function Crop<T>(g: seq<seq<T>>, w: Window): (patch: seq<seq<T>>)
    requires Fits(g, w)
    ensures |patch| == w.rows.Size()
    ensures forall r | 0 <= r < |patch| :: |patch[r]| == w.cols.Size()
    ensures forall r, c | 0 <= r < |patch| && 0 <= c < w.cols.Size() ::
      patch[r][c] == g[w.rows.lo + r][w.cols.lo + c]
  {
    seq(w.rows.Size(), r requires 0 <= r < w.rows.Size() => g[w.rows.lo + r][w.cols.lo..w.cols.hi])
  }

  /** `img[rows, cols] = patch`, for a patch of the window's shape. */
  function Paste<T>(g: seq<seq<T>>, w: Window, patch: seq<seq<T>>): (g': seq<seq<T>>)
    requires Fits(g, w)
    requires |patch| == w.rows.Size()
    requires forall r | 0 <= r < |patch| :: |patch[r]| == w.cols.Size()
    ensures |g'| == |g| && forall r | 0 <= r < |g| :: |g'[r]| == |g[r]|
  {
    seq(|g|, r requires 0 <= r < |g| =>
      if w.rows.Has(r) then PasteRow(g[r], w.cols, patch[r - w.rows.lo]) else g[r])
  }

  /** One row of `Paste`: the columns of `cols` replaced by `part`. */
  function PasteRow<T>(row: seq<T>, cols: Span, part: seq<T>): (row': seq<T>)
    requires cols.lo <= cols.hi <= |row| && |part| == cols.Size()
    ensures |row'| == |row|
  {
    row[..cols.lo] + part + row[cols.hi..]
  }

  /** Each pixel of a pasted row comes from the part inside the span and from
      the old row outside it. */
  lemma PasteRowCells<T>(row: seq<T>, cols: Span, part: seq<T>)
    requires cols.lo <= cols.hi <= |row| && |part| == cols.Size()
    ensures PasteRow(row, cols, part)[cols.lo..cols.hi] == part
    ensures forall c | 0 <= c < |row| && !cols.Has(c) :: PasteRow(row, cols, part)[c] == row[c]
  {
    var row' := PasteRow(row, cols, part);
    assert row'[cols.lo..cols.hi] == part;
    forall c | 0 <= c < |row| && !cols.Has(c) ensures row'[c] == row[c] {
      if c < cols.lo {
        assert row'[c] == row[..cols.lo][c];
      } else {
        assert row'[c] == row[cols.hi..][c - cols.hi];
      }
    }
  }

  /** One row of a paste. */
  lemma PasteRowAt<T>(g: seq<seq<T>>, w: Window, patch: seq<seq<T>>, r: nat)
    requires Fits(g, w)
    requires |patch| == w.rows.Size()
    requires forall k | 0 <= k < |patch| :: |patch[k]| == w.cols.Size()
    requires r < |g|
    ensures w.rows.Has(r) ==> Paste(g, w, patch)[r] == PasteRow(g[r], w.cols, patch[r - w.rows.lo])
    ensures !w.rows.Has(r) ==> Paste(g, w, patch)[r] == g[r]
  {
  }

  /** One row of a crop. */
  lemma CropRowAt<T>(g: seq<seq<T>>, w: Window, r: nat)
    requires Fits(g, w)
    requires r < w.rows.Size()
    ensures Crop(g, w)[r] == g[w.rows.lo + r][w.cols.lo..w.cols.hi]
  {
  }

  /** One row of cropping a pasted patch. */
  lemma PasteThenCropRow<T>(g: seq<seq<T>>, w: Window, patch: seq<seq<T>>, r: nat)
    requires Fits(g, w)
    requires |patch| == w.rows.Size()
    requires forall k | 0 <= k < |patch| :: |patch[k]| == w.cols.Size()
    requires r < |patch|
    ensures Fits(Paste(g, w, patch), w)
    ensures Crop(Paste(g, w, patch), w)[r] == patch[r]
  {
    var g' := Paste(g, w, patch);
    var row := w.rows.lo + r;
    PasteRowAt(g, w, patch, row);
    assert g'[row] == PasteRow(g[row], w.cols, patch[r]);
    CropRowAt(g', w, r);
    PasteRowCells(g[row], w.cols, patch[r]);
  }

  /** Pixels of one row outside the window survive a paste. */
  lemma PasteKeepsOutside<T>(g: seq<seq<T>>, w: Window, patch: seq<seq<T>>, r: nat)
    requires Fits(g, w)
    requires |patch| == w.rows.Size()
    requires forall k | 0 <= k < |patch| :: |patch[k]| == w.cols.Size()
    requires r < |g|
    ensures forall c | 0 <= c < |g[r]| && !(w.rows.Has(r) && w.cols.Has(c)) ::
      Paste(g, w, patch)[r][c] == g[r][c]
  {
    PasteRowAt(g, w, patch, r);
    if w.rows.Has(r) {
      PasteRowCells(g[r], w.cols, patch[r - w.rows.lo]);
    }
  }

  /** Writing a patch back and cropping the same window returns the patch, and
      every pixel outside the window is left as it was. */
  lemma PasteThenCrop<T>(g: seq<seq<T>>, w: Window, patch: seq<seq<T>>)
    requires Fits(g, w)
    requires |patch| == w.rows.Size()
    requires forall r | 0 <= r < |patch| :: |patch[r]| == w.cols.Size()
    ensures Fits(Paste(g, w, patch), w)
    ensures Crop(Paste(g, w, patch), w) == patch
    ensures forall r, c | 0 <= r < |g| && 0 <= c < |g[r]| && !(w.rows.Has(r) && w.cols.Has(c)) ::
      Paste(g, w, patch)[r][c] == g[r][c]
  {
    var g' := Paste(g, w, patch);
    assert Fits(g', w);
    forall r | 0 <= r < |patch| ensures Crop(g', w)[r] == patch[r] {
      PasteThenCropRow(g, w, patch, r);
    }
    forall r | 0 <= r < |g|
      ensures forall c | 0 <= c < |g[r]| && !(w.rows.Has(r) && w.cols.Has(c)) :: g'[r][c] == g[r][c]
    {
      PasteKeepsOutside(g, w, patch, r);
    }
  }

  /** Pasting a row's own slice back leaves the row unchanged. */
  lemma PasteRowOwnSlice<T>(row: seq<T>, cols: Span)
    requires cols.lo <= cols.hi <= |row|
    ensures PasteRow(row, cols, row[cols.lo..cols.hi]) == row
  {
    assert row[..cols.lo] + row[cols.lo..cols.hi] + row[cols.hi..] == row;
  }

  /** A row whose window part is pasted over itself is unchanged. */
  lemma PasteSameRow<T>(g: seq<seq<T>>, w: Window, patch: seq<seq<T>>, r: nat)
    requires Fits(g, w)
    requires |patch| == w.rows.Size()
    requires forall k | 0 <= k < |patch| :: |patch[k]| == w.cols.Size()
    requires r < |g|
    requires w.rows.Has(r) ==> patch[r - w.rows.lo] == g[r][w.cols.lo..w.cols.hi]
    ensures Paste(g, w, patch)[r] == g[r]
  {
    PasteRowAt(g, w, patch, r);
    if w.rows.Has(r) {
      PasteRowOwnSlice(g[r], w.cols);
    }
  }

  /** Writing back an unmodified crop leaves the image unchanged. */
  lemma PasteCropIdentity<T>(g: seq<seq<T>>, w: Window)
    requires Fits(g, w)
    ensures Paste(g, w, Crop(g, w)) == g
  {
    var patch := Crop(g, w);
    forall r | 0 <= r < |g| ensures Paste(g, w, patch)[r] == g[r] {
      if w.rows.Has(r) {
        CropRowAt(g, w, r - w.rows.lo);
      }
      PasteSameRow(g, w, patch, r);
    }
  }
}

=== FILE: scanner.dfy ===
/** The scanner program's object loop (scripts/iso-cv-scanner.py:64-182):
    which contours become objects, how objects are numbered, the size-adaptive
    morphology parameters, and the per-image results file. */
module Scanner {
  import opened Text
  import opened Numeric
  import opened PySlice
  import opened Contours
  import opened Roi

  /** A contour needs more than this many points (scripts/iso-cv-scanner.py:99). */
  const MinPoints: nat := 50
  /** `det_len_val`: minimum length estimate (scripts/iso-cv-scanner.py:44). */
  const MinLength: real := 100.0
  /** Pixels per millimetre of the scanner (scripts/iso-cv-scanner.py:154, 159). */
  const Scale: real := 94.6876

  // ---------------------------------------------------------------------------
  // Acceptance and labels (scripts/iso-cv-scanner.py:94-108)
  // ---------------------------------------------------------------------------

  /** `L = np.mean([sqrt(a1*a0*pi), max(axes)])`. */
  function EllipseLength(e: Ellipse): (len: real)
    ensures e.rootTerm <= Max2(e.axis0, e.axis1) ==> e.rootTerm <= len <= Max2(e.axis0, e.axis1)
    ensures Max2(e.axis0, e.axis1) <= e.rootTerm ==> Max2(e.axis0, e.axis1) <= len <= e.rootTerm
  {
    (e.rootTerm + Max2(e.axis0, e.axis1)) / 2.0
  }

  function Max2(a: real, b: real): real { if a <= b then b else a }

  /** A contour is an object when it has more than 50 points and its length
      estimate exceeds `det_len_val`; both bounds are strict. */
  predicate Accepted(c: Contour) {
    c.points > MinPoints && EllipseLength(c.ellipse) > MinLength
  }

  /** The accepted contours, in contour order. */
  function AcceptedOnly(cs: seq<Contour>): (r: seq<Contour>)
    ensures |r| <= |cs|
    ensures forall c | c in r :: c in cs && Accepted(c)
    ensures forall c | c in cs && Accepted(c) :: c in r
  {
    if |cs| == 0 then []
    else
      var init := AcceptedOnly(cs[..|cs| - 1]);
      var last := cs[|cs| - 1];
      assert cs == cs[..|cs| - 1] + [last];
      if Accepted(last) then init + [last] else init
  }

  /** An object: an accepted contour and the label written for it. */
  datatype Labelled = Labelled(number: nat, contour: Contour)

  /** The loop over `contours` with its counter `idx`: `idx` starts at 0 and is
      incremented for each accepted contour only, so the labels written are
      1, 2, ..., n for the accepted contours in order, with no gaps. */
  method LabelObjects(cs: seq<Contour>) returns (objs: seq<Labelled>)
    ensures |objs| == |AcceptedOnly(cs)|
    ensures forall k | 0 <= k < |objs| ::
      objs[k].number == k + 1 && objs[k].contour == AcceptedOnly(cs)[k]
  {
    var idx := 0;
    objs := [];
    for n := 0 to |cs|
      invariant idx == |objs|
      invariant |objs| == |AcceptedOnly(cs[..n])|
      invariant forall k | 0 <= k < |objs| ::
        objs[k].number == k + 1 && objs[k].contour == AcceptedOnly(cs[..n])[k]
    {
      var cnt := cs[n];
      AcceptedOnlyStep(cs, n);
      if cnt.points > MinPoints {
        var len := EllipseLength(cnt.ellipse);
        if len > MinLength {
          idx := idx + 1;
          objs := objs + [Labelled(idx, cnt)];
        }
      }
    }
    assert cs[..|cs|] == cs;
  }

  /** Extending the contours by one extends the accepted ones by at most that one. */
  lemma AcceptedOnlyStep(cs: seq<Contour>, n: nat)
    requires n < |cs|
    ensures AcceptedOnly(cs[..n + 1]) ==
      AcceptedOnly(cs[..n]) + (if Accepted(cs[n]) then [cs[n]] else [])
  {
    assert cs[..n + 1][..n] == cs[..n];
  }

  // ---------------------------------------------------------------------------
  // Size-adaptive morphology (scripts/iso-cv-scanner.py:55-58, 122-128)
  // ---------------------------------------------------------------------------

  /** The four `rec_*_fac` factors, all 1 in the program. */
  datatype Factors = Factors(kernClose: int, itClose: int, kernOpen: int, itOpen: int)

  const DefaultFactors: Factors := Factors(1, 1, 1, 1)

  /** Kernel sides and iteration counts of the closing (3) and opening (4). */
  datatype Morph = Morph(k3: nat, niter3: int, k4: nat, niter4: int)

  /** The closing and opening counts before the factors are applied: the
      nearest integers to 0.005L - 4 and 0.007L above 600, and to 0.015L - 4
      and 0.03L - 8 otherwise. */
  function BaseCounts(len: real): (n: (int, int))
    ensures len > 600.0 ==>
      -0.5 <= n.0 as real - (len * 0.005 - 4.0) <= 0.5 && -0.5 <= n.1 as real - len * 0.007 <= 0.5
    ensures len <= 600.0 ==>
      -0.5 <= n.0 as real - (len * 0.015 - 4.0) <= 0.5 && -0.5 <= n.1 as real - (len * 0.03 - 8.0) <= 0.5
  {
    if len > 600.0 then (RoundHalfEven(len * 0.005) - 4, RoundHalfEven(len * 0.007))
    else (RoundHalfEven(len * 0.015) - 4, RoundHalfEven(len * 0.03) - 8)
  }

  /** `k3, niter3, k4, niter4`. The factors are crossed as in the program:
      above 600 the closing count takes `rec_kern_close_fac` and the opening
      count `rec_it_close_fac`; otherwise they take `rec_kern_open_fac` and
      `rec_it_open_fac`. Nothing clamps the counts. */
  function MorphParams(len: real, f: Factors): (m: Morph)
    ensures m.k3 == 3
    ensures m.k4 == if len > 600.0 then 9 else 5
    ensures len > 600.0 ==> m.niter3 == BaseCounts(len).0 * f.kernClose && m.niter4 == BaseCounts(len).1 * f.itClose
    ensures len <= 600.0 ==> m.niter3 == BaseCounts(len).0 * f.kernOpen && m.niter4 == BaseCounts(len).1 * f.itOpen
  {
    if len > 600.0 then
      Morph(3, (RoundHalfEven(len * 0.005) - 4) * f.kernClose, 9, RoundHalfEven(len * 0.007) * f.itClose)
    else
      Morph(3, (RoundHalfEven(len * 0.015) - 4) * f.kernOpen, 5, (RoundHalfEven(len * 0.03) - 8) * f.itOpen)
  }

  /** Within each size regime, a longer object never gets fewer iterations
      (for non-negative factors). */
  lemma MorphMonotone(l1: real, l2: real, f: Factors)
    requires l1 <= l2
    requires (l1 > 600.0 && l2 > 600.0) || l2 <= 600.0
    requires f.kernClose >= 0 && f.itClose >= 0 && f.kernOpen >= 0 && f.itOpen >= 0
    ensures MorphParams(l1, f).niter3 <= MorphParams(l2, f).niter3
    ensures MorphParams(l1, f).niter4 <= MorphParams(l2, f).niter4
  {
    if l1 > 600.0 {
      RoundMonotone(l1 * 0.005, l2 * 0.005);
      RoundMonotone(l1 * 0.007, l2 * 0.007);
      ScaleMonotone(BaseCounts(l1).0, BaseCounts(l2).0, f.kernClose);
      ScaleMonotone(BaseCounts(l1).1, BaseCounts(l2).1, f.itClose);
    } else {
      RoundMonotone(l1 * 0.015, l2 * 0.015);
      RoundMonotone(l1 * 0.03, l2 * 0.03);
      ScaleMonotone(BaseCounts(l1).0, BaseCounts(l2).0, f.kernOpen);
      ScaleMonotone(BaseCounts(l1).1, BaseCounts(l2).1, f.itOpen);
    }
  }

  lemma ScaleMonotone(a: int, b: int, f: int)
    requires a <= b && f >= 0
    ensures a * f <= b * f
  {
  }

  /** Accepted objects can get non-positive iteration counts: every object with
      100 < L < 300 gets no closing iterations, and so does every object with
      600 < L < 900. */
  lemma CountsNotClamped(len: real)
    ensures 100.0 < len < 300.0 ==> MorphParams(len, DefaultFactors).niter3 <= 0
    ensures 600.0 < len < 900.0 ==> MorphParams(len, DefaultFactors).niter3 <= 0
  {
    if 100.0 < len < 300.0 {
      RoundMonotone(len * 0.015, 4.5);
    }
    if 600.0 < len < 900.0 {
      RoundMonotone(len * 0.005, 4.5);
    }
  }

  /** Two accepted lengths and their counts: L = 200 gives closing -1 and
      opening -2; crossing 600 drops the closing count from 5 to -1. */
  lemma CountExamples()
    ensures MorphParams(200.0, DefaultFactors) == Morph(3, -1, 5, -2)
    ensures MorphParams(600.0, DefaultFactors) == Morph(3, 5, 5, 10)
    ensures MorphParams(601.0, DefaultFactors) == Morph(3, -1, 9, 4)
  {
    RoundOfInteger(3);
    RoundOfInteger(6);
    RoundOfInteger(9);
    RoundOfInteger(18);
    assert RoundHalfEven(601.0 * 0.005) == 3;
    assert RoundHalfEven(601.0 * 0.007) == 4;
  }

  // ---------------------------------------------------------------------------
  // Results file (scripts/iso-cv-scanner.py:68-70, 150-167)
  // ---------------------------------------------------------------------------

  const Columns: seq<string> := ["PyLabel", "X", "Y", "Length", "Area", "Mean", "StdDev", "Min", "Max"]

  const Header: string := Row(Columns)

  /** What OpenCV and numpy measure for one object inside its crop. */
  datatype ObjectStats = ObjectStats(
    shapes: seq<Contour>, // findContours of the cleaned crop (`contours1`)
    centroid: Point,  // (m10/m00, m01/m00) of the measured shape, crop coordinates
    mean: real,       // np.mean of the masked crop
    sd: real,         // np.std of the masked crop
    min: nat,         // np.min of the masked crop
    max: nat)         // np.max of the masked crop

  /** The cleaned crop held at least one contour. */
  predicate Measured(st: ObjectStats) { |st.shapes| > 0 }

  /** `shape = contours1[np.argmax(areas)]` (scripts/iso-cv-scanner.py:139-141). */
  function Shape(st: ObjectStats): (c: Contour)
    requires Measured(st)
    ensures FirstLargest(st.shapes, c)
  {
    st.shapes[Largest(st.shapes)]
  }

  /** Length in millimetres: the enclosing circle's integer radius, doubled,
      divided by the scale. */
  function Length(st: ObjectStats): (len: real)
    requires Measured(st)
    ensures 0.0 <= Shape(st).radius ==>
      2.0 * Shape(st).radius / Scale - 2.0 / Scale < len <= 2.0 * Shape(st).radius / Scale
  {
    (Trunc(Shape(st).radius) * 2) as real / Scale
  }

  /** The fields of one object's row, label first. */
  function RowFieldsOf(num: nat, box: Rect, st: ObjectStats): seq<string>
    requires Measured(st)
  {
    var (a, b) := ImageCentroid(box, st.centroid);
    [NatText(num), IntText(a), IntText(b),
     Fixed2Text(Round2(Length(st))), Fixed2Text(Round2(Shape(st).area / Scale / Scale)),
     Fixed2Text(Round2(st.mean)), Fixed2Text(Round2(st.sd)),
     NatText(st.min), NatText(st.max)]
  }

  /** One object's line (scripts/iso-cv-scanner.py:167). */
  function ObjectRow(num: nat, box: Rect, st: ObjectStats): string
    requires Measured(st)
  {
    Row(RowFieldsOf(num, box, st))
  }

  /** An object's line is one line whose fields are the object's values, and
      its first field reads back as the object's number. */
  lemma ObjectRowFields(num: nat, box: Rect, st: ObjectStats)
    requires Measured(st)
    ensures IsLine(ObjectRow(num, box, st))
    ensures Fields(ObjectRow(num, box, st)) == RowFieldsOf(num, box, st)
    ensures ParseNat(Fields(ObjectRow(num, box, st))[0]) == num
  {
    var fs := RowFieldsOf(num, box, st);
    FieldsOfClean(num, box, st);
    RowFields(fs);
    ParseNatText(num);
  }

  /** Each of an object's values is written as one clean field. */
  lemma FieldsOfClean(num: nat, box: Rect, st: ObjectStats)
    requires Measured(st)
    ensures |RowFieldsOf(num, box, st)| == 9 && RowFieldsOf(num, box, st)[0] == NatText(num)
    ensures forall k | 0 <= k < |RowFieldsOf(num, box, st)| :: IsField(RowFieldsOf(num, box, st)[k])
  {
    var (a, b) := ImageCentroid(box, st.centroid);
    var f0, f1, f2 := NatText(num), IntText(a), IntText(b);
    var f3, f4 := Fixed2Text(Round2(Length(st))), Fixed2Text(Round2(Shape(st).area / Scale / Scale));
    var f5, f6 := Fixed2Text(Round2(st.mean)), Fixed2Text(Round2(st.sd));
    var f7, f8 := NatText(st.min), NatText(st.max);
    NatTextIsField(num);
    IntTextIsField(a);
    IntTextIsField(b);
    NatTextIsField(st.min);
    NatTextIsField(st.max);
    assert IsField(f3) && IsField(f4) && IsField(f5) && IsField(f6);
    var fs := [f0, f1, f2, f3, f4, f5, f6, f7, f8];
    NineFields(f0, f1, f2, f3, f4, f5, f6, f7, f8);
    assert fs == RowFieldsOf(num, box, st);
  }

  lemma NineFields(f0: string, f1: string, f2: string, f3: string, f4: string,
                   f5: string, f6: string, f7: string, f8: string)
    requires IsField(f0) && IsField(f1) && IsField(f2) && IsField(f3) && IsField(f4)
    requires IsField(f5) && IsField(f6) && IsField(f7) && IsField(f8)
    ensures forall k | 0 <= k < 9 :: IsField([f0, f1, f2, f3, f4, f5, f6, f7, f8][k])
  {
  }

  /** The part of `ObjectRowFields` the results file needs. */
  lemma ObjectRowShape(num: nat, box: Rect, st: ObjectStats)
    requires Measured(st)
    ensures IsLine(ObjectRow(num, box, st))
    ensures |Fields(ObjectRow(num, box, st))| == |Columns|
    ensures ParseNat(Fields(ObjectRow(num, box, st))[0]) == num
  {
    ObjectRowFields(num, box, st);
  }

  /** The results file of one image, written afresh on every run: the header,
      then the objects' lines. Nothing from an earlier run is kept. */
  function ResultsFile(objs: seq<Labelled>, stats: seq<ObjectStats>): (lines: seq<string>)
    requires |stats| == |objs|
    requires forall k | 0 <= k < |stats| :: Measured(stats[k])
    ensures |lines| == |objs| + 1 && lines[0] == Header
    ensures lines[1..] == ObjectLines(objs, stats)
  {
    [Header] + ObjectLines(objs, stats)
  }

  /** One line per object, in order. `stats[k]` belongs to `objs[k]`. */
  function ObjectLines(objs: seq<Labelled>, stats: seq<ObjectStats>): (rows: seq<string>)
    requires |stats| == |objs|
    requires forall k | 0 <= k < |stats| :: Measured(stats[k])
    ensures |rows| == |objs|
    ensures forall k | 0 <= k < |objs| ::
      rows[k] == ObjectRow(objs[k].number, objs[k].contour.box, stats[k])
  {
    seq(|objs|, k requires 0 <= k < |objs| => ObjectRow(objs[k].number, objs[k].contour.box, stats[k]))
  }

  lemma ColumnsAreFields()
    ensures forall k | 0 <= k < |Columns| :: IsField(Columns[k])
  {
  }

  /** The header is one line of nine fields, the column names. */
  lemma HeaderColumns()
    ensures IsLine(Header) && Fields(Header) == Columns && |Columns| == 9
  {
    ColumnsAreFields();
    RowFields(Columns);
  }

  /** Every line of a results file has the header's nine fields, and when the
      objects carry the labels `LabelObjects` gives them, line k names object k. */
  lemma ResultsFileShape(objs: seq<Labelled>, stats: seq<ObjectStats>)
    requires |stats| == |objs|
    requires forall k | 0 <= k < |stats| :: Measured(stats[k])
    requires forall k | 0 <= k < |objs| :: objs[k].number == k + 1
    ensures var lines := ResultsFile(objs, stats);
      forall k | 0 <= k < |lines| :: IsLine(lines[k]) && |Fields(lines[k])| == 9
    ensures var lines := ResultsFile(objs, stats);
      forall k | 1 <= k < |lines| :: ParseNat(Fields(lines[k])[0]) == k
  {
    var lines := ResultsFile(objs, stats);
    forall k | 1 <= k < |lines| ensures ParseNat(Fields(lines[k])[0]) == k {
      var o := objs[k - 1];
      assert lines[k] == lines[1..][k - 1];
      ObjectRowShape(o.number, o.contour.box, stats[k - 1]);
    }
    forall k | 0 <= k < |lines| ensures IsLine(lines[k]) && |Fields(lines[k])| == 9 {
      if k == 0 {
        HeaderColumns();
      } else {
        var o := objs[k - 1];
        assert lines[k] == lines[1..][k - 1];
        ObjectRowShape(o.number, o.contour.box, stats[k - 1]);
      }
    }
  }

  // ---------------------------------------------------------------------------
  // One object
  // ---------------------------------------------------------------------------

  /** What the program derives for one object before measuring it: the crop
      of the gray image and the morphology parameters from its length. */
  datatype Plan = Plan(crop: Window, morph: Morph)

  function PlanObject(height: nat, width: nat, o: Labelled): (p: Plan)
    requires Accepted(o.contour)
    ensures BoxInImage(o.contour.box, height, width) ==>
      forall r | o.contour.box.y <= r < o.contour.box.y + o.contour.box.h :: p.crop.rows.Has(r)
    ensures BoxInImage(o.contour.box, height, width) ==>
      forall c | o.contour.box.x <= c < o.contour.box.x + o.contour.box.w :: p.crop.cols.Has(c)
    ensures p.morph.k3 == 3 && p.morph.k4 in {5, 9}
  {
    Plan(BoxWindow(height, width, o.contour.box),
         MorphParams(EllipseLength(o.contour.ellipse), DefaultFactors))
  }
}

=== FILE: seqs.dfy ===
/** Small facts about sequences shared by the other modules. */
module Seqs {

  /** Position of the first occurrence of `x` in `s` (Python's `s.index(x)`). */
  function IndexOf<T(==)>(s: seq<T>, x: T): (k: nat)
    requires x in s
    ensures k < |s| && s[k] == x && x !in s[..k]
  {
    if s[0] == x then 0 else 1 + IndexOf(s[1..], x)
  }

  /** No value occurs twice. */
  predicate Distinct<T(==)>(s: seq<T>) {
    forall a, b | 0 <= a < b < |s| :: s[a] != s[b]
  }

  /** `s` without its element at position `j`. */
  function RemoveAt<T>(s: seq<T>, j: nat): (r: seq<T>)
    requires j < |s|
    ensures |r| == |s| - 1
    ensures forall k | 0 <= k < j :: r[k] == s[k]
    ensures forall k | j <= k < |r| :: r[k] == s[k + 1]
  {
    s[..j] + s[j + 1..]
  }
}

=== FILE: text.dfy ===
/** String helpers with Python's meaning: substring test (`p in s`), prefix
    and suffix tests, `str()` of integers and of floats rounded to two
    decimals, and tab-separated rows (`"\t".join`, `str.split("\t")`). */
module Text {
  import opened Seqs

  const Tab: char := '\t'
  const Newline: char := '\n'

  // ---------------------------------------------------------------------------
  // Substrings
  // ---------------------------------------------------------------------------

  /** Python's `p in s` on strings. */
  predicate Contains(s: string, p: string) {
    exists k | 0 <= k <= |s| :: p <= s[k..]
  }

  predicate StartsWith(s: string, p: string) { p <= s }

  predicate EndsWith(s: string, suffix: string) {
    |suffix| <= |s| && s[|s| - |suffix|..] == suffix
  }

  lemma ContainsPrefix(s: string, p: string)
    requires StartsWith(s, p)
    ensures Contains(s, p)
  {
    assert p <= s[0..];
  }

  /** An occurrence in `b` is an occurrence in `a + b`. */
  lemma ContainsAfter(a: string, b: string, p: string)
    requires Contains(b, p)
    ensures Contains(a + b, p)
  {
    var k :| 0 <= k <= |b| && p <= b[k..];
    assert (a + b)[|a| + k..] == b[k..];
  }

  /** An occurrence in `a` is an occurrence in `a + b`. */
  lemma ContainsBefore(a: string, b: string, p: string)
    requires Contains(a, p)
    ensures Contains(a + b, p)
  {
    var k :| 0 <= k <= |a| && p <= a[k..];
    assert (a + b)[k..] == a[k..] + b;
  }

  /** A non-empty pattern that occurs in `s` shares its first character with `s`. */
  lemma ContainsFirstChar(s: string, p: string)
    requires Contains(s, p) && |p| > 0
    ensures p[0] in s
  {
    var k :| 0 <= k <= |s| && p <= s[k..];
    assert s[k] == p[0];
  }

  /** Every character of an occurring pattern occurs in `s`. */
  lemma ContainsChars(s: string, p: string, c: char)
    requires Contains(s, p) && c in p
    ensures c in s
  {
    var k :| 0 <= k <= |s| && p <= s[k..];
    var j :| 0 <= j < |p| && p[j] == c;
    assert s[k + j] == c;
  }

  // ---------------------------------------------------------------------------
  // Decimal text of integers: str(n)
  // ---------------------------------------------------------------------------

  predicate IsDigit(c: char) { '0' <= c <= '9' }

  function Digit(d: nat): (c: char)
    requires d < 10
    ensures IsDigit(c) && DigitValue(c) == d
  {
    ('0' as int + d) as char
  }

  function DigitValue(c: char): int { c as int - '0' as int }

  /** `str(n)` for a non-negative integer. */
  function NatText(n: nat): (t: string)
    ensures |t| >= 1
    ensures forall k | 0 <= k < |t| :: IsDigit(t[k])
    ensures t[0] == '0' ==> n == 0
  {
    if n < 10 then [Digit(n)] else NatText(n / 10) + [Digit(n % 10)]
  }

  /** `int(t)` for a string of digits. */
  function ParseNat(t: string): int {
    if |t| == 0 then 0 else ParseNat(t[..|t| - 1]) * 10 + DigitValue(t[|t| - 1])
  }

  /** Reading back the text of a number gives the number. */
  lemma {:induction false} ParseNatText(n: nat)
    ensures ParseNat(NatText(n)) == n
  {
    if n >= 10 {
      var t := NatText(n);
      assert t[..|t| - 1] == NatText(n / 10);
      ParseNatText(n / 10);
    }
  }

  /** `str(i)` for any integer. */
  function IntText(i: int): (t: string)
    ensures |t| >= 1
    ensures i >= 0 ==> t == NatText(i)
    ensures i < 0 ==> t == "-" + NatText(-i)
  {
    if i < 0 then "-" + NatText(-i) else NatText(i)
  }

  /** `int(t)` for the texts `IntText` produces: an optional minus sign, then digits. */
  function ParseInt(t: string): int {
    if |t| > 0 && t[0] == '-' then -ParseNat(t[1..]) else ParseNat(t)
  }

  /** Reading back `str(i)` gives `i`, for either sign. */
  lemma IntTextRoundTrip(i: int)
    ensures ParseInt(IntText(i)) == i
  {
    if i < 0 {
      var a: nat := -i;
      var t := IntText(i);
      assert t == "-" + NatText(a);
      assert t[1..] == NatText(a);
      ParseNatText(a);
    } else {
      ParseNatText(i);
      assert IsDigit(NatText(i)[0]);
    }
  }

  // ---------------------------------------------------------------------------
  // str(round(x, 2)): a float with at most two decimals, given in hundredths
  // ---------------------------------------------------------------------------

  /** The digits after the point of `str` of a float holding `f` hundredths
      (`0 <= f < 100`): trailing zeros dropped, but at least one digit. */
  function FractionText(f: nat): (t: string)
    requires f < 100
    ensures 1 <= |t| <= 2
    ensures forall k | 0 <= k < |t| :: IsDigit(t[k])
  {
    if f == 0 then "0"
    else if f % 10 == 0 then [Digit(f / 10)]
    else [Digit(f / 10), Digit(f % 10)]
  }

  /** `str(x)` for a float `x` equal to `a / 100`, `a >= 0`. */
  function UnsignedFixed2Text(a: nat): (t: string)
    ensures '.' in t
    ensures Tab !in t && Newline !in t
  {
    var ip := NatText(a / 100);
    assert ip[|ip| - 1] != '.';
    ip + "." + FractionText(a % 100)
  }

  /** `str(x)` for a float `x` equal to `h / 100`. */
  function Fixed2Text(h: int): (t: string)
    ensures '.' in t
    ensures Tab !in t && Newline !in t
    decreases if h < 0 then 1 else 0
  {
    if h < 0 then "-" + Fixed2Text(-h) else UnsignedFixed2Text(h)
  }

  /** The value in hundredths of the digits after a decimal point. */
  function FractionValue(t: string): int {
    if |t| == 1 then DigitValue(t[0]) * 10
    else if |t| == 2 then DigitValue(t[0]) * 10 + DigitValue(t[1])
    else 0
  }

  /** `float(t)` in hundredths, for the texts `Fixed2Text` produces. */
  function ParseFixed2(t: string): int {
    if |t| > 0 && t[0] == '-' then -ParseUnsignedFixed2(t[1..])
    else ParseUnsignedFixed2(t)
  }

  function ParseUnsignedFixed2(t: string): int {
    if '.' in t then
      var k := IndexOf(t, '.');
      ParseNat(t[..k]) * 100 + FractionValue(t[k + 1..])
    else ParseNat(t) * 100
  }

  /** Reading back a non-negative two-decimal float gives its value. */
  lemma UnsignedFixed2RoundTrip(a: nat)
    ensures UnsignedFixed2Text(a)[0] != '-'
    ensures ParseUnsignedFixed2(UnsignedFixed2Text(a)) == a
  {
    var ip := NatText(a / 100);
    var ft := FractionText(a % 100);
    var t := ip + "." + ft;
    assert UnsignedFixed2Text(a) == t;
    assert '.' !in ip by {
      forall k | 0 <= k < |ip| ensures ip[k] != '.' { assert IsDigit(ip[k]); }
    }
    assert t[..|ip|] == ip;
    assert t[|ip|] == '.';
    assert IndexOf(t, '.') == |ip|;
    assert t[|ip| + 1..] == ft;
    ParseNatText(a / 100);
    assert t[0] != '-' by { assert IsDigit(ip[0]); }
  }

  /** A leading minus sign negates the unsigned reading of the rest. */
  lemma NegativeSign(h: int, a: nat)
    requires h < 0 && a == -h
    ensures ParseFixed2(Fixed2Text(h)) == -ParseUnsignedFixed2(UnsignedFixed2Text(a))
  {
    var u := UnsignedFixed2Text(a);
    var t := Fixed2Text(h);
    assert t == "-" + u;
    assert t[0] == '-' && t[1..] == u;
  }

  /** Reading back a two-decimal float gives its value. */
  lemma Fixed2RoundTrip(h: int)
    ensures ParseFixed2(Fixed2Text(h)) == h
  {
    if h < 0 {
      var a: nat := -h;
      UnsignedFixed2RoundTrip(a);
      NegativeSign(h, a);
    } else {
      UnsignedFixed2RoundTrip(h);
    }
  }

  // ---------------------------------------------------------------------------
  // Tab-separated rows
  // ---------------------------------------------------------------------------

  /** A value that can stand as one field of a tab-separated line. */
  predicate IsField(f: string) { Tab !in f && Newline !in f }

  /** The fields joined by tabs (`f0 + "\t" + f1 + ... `). */
  function JoinTab(fs: seq<string>): string
    requires |fs| > 0
  {
    if |fs| == 1 then fs[0] else fs[0] + [Tab] + JoinTab(fs[1..])
  }

  /** A line as the programs write it: tab-joined fields and a newline. */
  function Row(fs: seq<string>): string
    requires |fs| > 0
  {
    JoinTab(fs) + [Newline]
  }

  /** Python's `s.split("\t")`. */
  function SplitTab(s: string): (fs: seq<string>)
    ensures |fs| >= 1
    decreases |s|
  {
    if Tab !in s then [s]
    else
      var k := IndexOf(s, Tab);
      [s[..k]] + SplitTab(s[k + 1..])
  }

  /** The fields of a line: drop its newline, then split on tabs. */
  function Fields(line: string): seq<string> {
    if |line| > 0 && line[|line| - 1] == Newline then SplitTab(line[..|line| - 1])
    else SplitTab(line)
  }

  /** A line: ends in a newline and holds no other newline. */
  predicate IsLine(l: string) {
    |l| > 0 && l[|l| - 1] == Newline && Newline !in l[..|l| - 1]
  }

  lemma {:induction false} JoinTabNoNewline(fs: seq<string>)
    requires |fs| > 0
    requires forall k | 0 <= k < |fs| :: IsField(fs[k])
    ensures Newline !in JoinTab(fs)
  {
    if |fs| > 1 {
      JoinTabNoNewline(fs[1..]);
    }
  }

  /** A character of a joined row is a tab or a character of some field. */
  lemma {:induction false} JoinTabChars(fs: seq<string>, c: char)
    requires |fs| > 0
    requires c != Tab && forall k | 0 <= k < |fs| :: c !in fs[k]
    ensures c !in JoinTab(fs)
  {
    if |fs| > 1 {
      JoinTabChars(fs[1..], c);
    }
  }

  /** Splitting tab-joined fields gives the fields back. */
  lemma {:induction false} SplitJoin(fs: seq<string>)
    requires |fs| > 0
    requires forall k | 0 <= k < |fs| :: Tab !in fs[k]
    ensures SplitTab(JoinTab(fs)) == fs
  {
    if |fs| > 1 {
      SplitAtTab(fs[0], JoinTab(fs[1..]));
      SplitJoin(fs[1..]);
      assert [fs[0]] + fs[1..] == fs;
    }
  }

  /** Splitting stops at the first tab. */
  lemma SplitAtTab(a: string, rest: string)
    requires Tab !in a
    ensures SplitTab(a + [Tab] + rest) == [a] + SplitTab(rest)
  {
    var s := a + [Tab] + rest;
    assert s[|a|] == Tab;
    assert s[..|a|] == a;
    assert IndexOf(s, Tab) == |a|;
    assert s[|a| + 1..] == rest;
  }

  /** A row of clean fields is one line whose fields are exactly those fields. */
  lemma RowFields(fs: seq<string>)
    requires |fs| > 0
    requires forall k | 0 <= k < |fs| :: IsField(fs[k])
    ensures IsLine(Row(fs))
    ensures Fields(Row(fs)) == fs
  {
    var r := Row(fs);
    assert r[..|r| - 1] == JoinTab(fs);
    JoinTabNoNewline(fs);
    SplitJoin(fs);
  }

  lemma NatTextIsField(n: nat)
    ensures IsField(NatText(n))
  {
    var t := NatText(n);
    forall k | 0 <= k < |t| ensures t[k] != Tab && t[k] != Newline { assert IsDigit(t[k]); }
  }

  lemma IntTextIsField(i: int)
    ensures IsField(IntText(i))
  {
    NatTextIsField(if i < 0 then -i else i);
  }
}
